=== FILE: README.md ===
# tallyKhata core, modelled in Dafny

tallyKhata is a small shop-keeping app for Bangladeshi traders. A signed-in user owns
one business, and the business has a stock list and a list of customers and suppliers
("parties"). This project models the five files the app's behaviour rests on:

- `src/lib/supabase.ts` — the Supabase client. Its session storage splits a long value
  into 1800-character chunks under `<key>:chunk:<i>`, with a count under
  `<key>:chunk-count`. Short values are stored under the key itself, and every write
  first clears what was there. The model is `supabase_client.dfy`. The native key-value
  store is a class whose `entries` map the three storage methods update. Reading,
  clearing and writing are methods with loops, each proved against a function on the
  map (`Stored`, `Cleared`, `Written`). The lemmas prove that reading after a write
  gives the value back and that a write touches no key outside its own prefix.
- `src/app/hooks/useSupabase.ts` — the data hook. It normalises Bangladeshi phone
  numbers, validates each create or update request, finds the user's business (creating
  it if needed), and inserts, lists, updates and soft-deletes rows. The model is
  `supabase_hook.dfy`. The database is a class (`Backend`) holding three tables as
  sequences. Each hook operation is a method whose contract ties its result and the new
  tables to a pure validation function and to table functions (`ActiveFor`,
  `UpdateInScope`, `DeactivateInScope`, `LatestBusiness`). The lemmas cover ordering,
  invariants and soft-delete.
- `src/app/stock.tsx` — the stock screen: the create form, the edit modal, the
  unit picker and the totals card. The model is `stock_screen.dfy`.
- `src/app/customer_supplier.tsx` — the screen that adds a customer or supplier. The
  model is `customer_supplier_screen.dfy`. The file's own copy of `normalizeBdPhone`
  (customer_supplier.tsx:23-43) is character for character the hook's, so the model
  has one `SupabaseHook.NormalizeBdPhone` that both use.
- `src/app/hooks/useAuthentication.ts` — the social sign-in handler, guarded by
  `loadingStrategy`. The model is `social_auth.dfy`.

`text.dfy` holds the string helpers the sources use: `trim`, removing non-digits,
`parseInt` and `String(n)`. `wrappers.dfy` holds `Option` and `Result`.

Numbers typed by the user pass through JavaScript's `parseFloat`/`Number`, so they are
modelled as `Num = Finite(real) | NotFinite`. Parsing is a function parameter
(`parse: string -> Num`). `Number(x.toFixed(2))` is `Round2`, which rounds half away
from zero on reals. Everything outside the app itself becomes a parameter or an effect log:
the clock, the Clerk session (`Auth`), the SSO provider, the pickers and alerts. So
do the errors the backend or the secure store may return: each of `Backend` and
`SecureStore` has an `online`/`accessible` flag. While it is on, every call is answered;
while it is off, any call may fail, and a failed call changes nothing.

Where the code departs from what one might expect, the model follows the code:

- `updateStock` validates `id.trim()` but filters the update by the untrimmed `id`
  (useSupabase.ts:340 and 383). `UseSupabase.UpdateStock` does the same.
- `updateCustomerSupplier` always sends both amounts, defaulting an absent one to 0
  (useSupabase.ts:536-537, 594-595). It does not keep the stored amount.
- The amount fields keep every digit and every dot typed (customer_supplier.tsx:75-81),
  not at most one dot. `KeepAmountCharsKeepsDots` proves that every dot is kept, and
  `ClampAmount` shows what the parse then makes of the text.
- `total_cost` is computed from cost per unit and opening stock on both create and
  update (useSupabase.ts:244, 371). The edit modal's "total cost" field is shown but
  never sent (stock.tsx:183-190).

## Model

| member | source | states |
|---|---|---|
| Text.TrimStartSpec | src/app/hooks/useSupabase.ts:218-219 | `trimStart` yields a suffix of its input that does not start with whitespace, and everything it dropped was whitespace |
| Text.TrimEndSpec | src/app/hooks/useSupabase.ts:218-219 | `trimEnd` yields a prefix that does not end with whitespace, and everything it dropped was whitespace |
| Text.TrimSpec | src/app/hooks/useSupabase.ts:218-219 | `trim()` returns a slice of its input whose first and last characters are not whitespace |
| Text.TrimStart | src/app/hooks/useSupabase.ts:218-219 | the leading half of `trim()`; its properties are `TrimStartSpec` |
| Text.TrimEnd | src/app/hooks/useSupabase.ts:218-219 | the trailing half of `trim()`; its properties are `TrimEndSpec` |
| Text.Trim | src/app/hooks/useSupabase.ts:218-219 | `trim()`; its properties are `TrimSpec` and `TrimEmptyIffBlank` |
| Text.TrimEmptyIffBlank | src/app/hooks/useSupabase.ts:221-227 | `!s.trim()` holds exactly when `s` is all whitespace |
| Text.TrimmedNotBlank | src/app/hooks/useSupabase.ts:218-227 | a non-blank name stays non-empty and non-blank after trimming |
| Text.KeepDigits | src/app/hooks/useSupabase.ts:6 | `replace(/[^0-9]/g, "")` yields only digits and is no longer than its input |
| Text.KeepDigitsOfDigits | src/app/hooks/useSupabase.ts:6 | removing non-digits from a string of digits changes nothing |
| Text.DigitChar | src/lib/supabase.ts:71 | a digit value below ten becomes a decimal digit character |
| Text.NatToString | src/lib/supabase.ts:71 | `String(n)` of a count is a non-empty string of digits |
| Text.DigitPrefix | src/lib/supabase.ts:20 | what `parseInt` reads is a run of digits at the start of the text |
| Text.DigitPrefixOfDigits | src/lib/supabase.ts:20 | on a string that is all digits, `parseInt` reads the whole string |
| Text.ParseInt | src/lib/supabase.ts:20 | `Number.parseInt(raw, 10)` on the digit strings the count marker holds: none (NaN) without a leading digit; `ParseIntOfNatToString` is its round trip |
| Text.DigitsValueOfNatToString | src/lib/supabase.ts:20 | the decimal value of `String(n)` is `n` |
| Text.ParseIntOfNatToString | src/lib/supabase.ts:20 | `parseInt(String(n), 10)` gives back `n`, so a stored chunk count reads back unchanged |
| Text.NatToStringInjective | src/lib/supabase.ts:10 | distinct indices give distinct decimal strings, so chunk keys never collide |
| SupabaseClient.ChunkKeysDistinct | src/lib/supabase.ts:8-10 | chunk keys of distinct indices differ, and no chunk key equals the count key or the plain storage key |
| SupabaseClient.StorageKey | src/lib/supabase.ts:5-8 | the physical key is `sb-auth-` followed by the key |
| SupabaseClient.CountKey | src/lib/supabase.ts:9 | the count marker is the storage key followed by `:chunk-count` |
| SupabaseClient.ChunkKey | src/lib/supabase.ts:10 | chunk i is the storage key, `:chunk:` and i in decimal |
| SupabaseClient.Chunks | src/lib/supabase.ts:62-65 | the 1800-character slices of a value; its properties are `ChunksSpec` |
| SupabaseClient.ParsedCount | src/lib/supabase.ts:20-23 | the chunk count a marker denotes, 0 when it is not a positive integer |
| SupabaseClient.Stored | src/lib/supabase.ts:12-35 | what a read returns from a store that answers every call: the plain value without a marker, null for a bad count or a missing chunk, else the joined chunks; `WriteThenRead` is its round trip |
| SupabaseClient.Written | src/lib/supabase.ts:54-72 | the store after a write: cleared, then the plain value or the chunks and their count; `WriteThenRead` is its round trip |
| SupabaseClient.Tidy | src/lib/supabase.ts:54-72 | the layout writes keep: a marker is non-empty, and every chunk present lies below the count; `WriteKeepsTidy` shows writes keep it |
| SupabaseClient.ChunksSpec | src/lib/supabase.ts:62-65 | slicing yields ceil(length/1800) parts, each non-empty and at most 1800 long, and joining them gives the value back |
| SupabaseClient.Gather | src/lib/supabase.ts:25-32 | a successful gather returns exactly `chunkCount` parts |
| SupabaseClient.GatherAllOrNothing | src/lib/supabase.ts:25-32 | gathering succeeds exactly when every chunk key below the count is present, and then part i is the entry under chunk key i |
| SupabaseClient.ClearedKeys | src/lib/supabase.ts:37-52 | clearing only ever removes keys under the value's own storage key |
| SupabaseClient.Cleared | src/lib/supabase.ts:37-52 | clearing keeps every other key and value as it was, removes no other key and always removes the plain storage key |
| SupabaseClient.PutChunksAt | src/lib/supabase.ts:67-69 | after storing the chunks, chunk key i holds part i |
| SupabaseClient.PutChunksElsewhere | src/lib/supabase.ts:67-69 | storing the chunks leaves every key that is not a chunk key untouched |
| SupabaseClient.WrittenSameOutside | src/lib/supabase.ts:54-72 | a write changes nothing outside its own storage key's keys |
| SupabaseClient.WriteThenRead | src/lib/supabase.ts:12-72 | reading after a write returns the written value, both for short values and for chunked ones |
| SupabaseClient.ClearRemovesOwnEntries | src/lib/supabase.ts:37-52 | on a tidy store (a non-empty count is present whenever any chunk is, and covers every chunk index), clearing removes every key of the value |
| SupabaseClient.ShortWriteHasNoChunks | src/lib/supabase.ts:55-60 | a value of at most 1800 characters is stored under the key itself, with no count and no chunks left over |
| SupabaseClient.LongWriteLayout | src/lib/supabase.ts:62-71 | a long value leaves no plain entry, the count as a decimal string, and non-empty parts of at most 1800 characters under the chunk keys that gather back into the value |
| SupabaseClient.WriteKeepsTidy | src/lib/supabase.ts:54-72 | writing keeps the store tidy |
| SupabaseClient.ClearAfterLongWrite | src/lib/supabase.ts:37-52 | clearing after a long write removes the count, every chunk and the plain key |
| SupabaseClient.ChunkPrefixRemoved | src/lib/supabase.ts:44-51 | deleting the first chunk keys, then the count, then the plain key only ever removes keys of this value |
| SupabaseClient.ClearedCounted | src/lib/supabase.ts:37-52 | with a non-empty count marker, clearing removes exactly the chunk keys below the count, the marker and the plain key |
| SupabaseClient.DeleteChunks | src/lib/supabase.ts:44-46 | the chunk-deleting loop stops at the first failure; on an accessible store it deletes every chunk key below the count, and in any case it has deleted a prefix of them |
| SupabaseClient.ChunksFrom | src/lib/supabase.ts:63-65 | the slicing loop's step: the chunks from position i are the slice at i followed by the chunks after it |
| SupabaseClient.SecureStore.GetItemAsync | src/lib/supabase.ts:14 | an accessible store always answers; a read that answers returns the entry under the key, or none |
| SupabaseClient.SecureStore.SetItemAsync | src/lib/supabase.ts:58 | an accessible store always answers; a successful set maps the key to the value, and a failed set changes nothing |
| SupabaseClient.SecureStore.DeleteItemAsync | src/lib/supabase.ts:45 | an accessible store always answers; a successful delete removes exactly that key, and a failed delete changes nothing |
| SupabaseClient.ReadNativeValue | src/lib/supabase.ts:12-35 | on an accessible store the read succeeds; a read that succeeds returns `Stored`: the plain value when there is no count, nothing for a bad count or a missing chunk, otherwise the joined chunks |
| SupabaseClient.ClearNativeValue | src/lib/supabase.ts:37-52 | on an accessible store the clear succeeds; a clear that succeeds leaves `Cleared`; even a failed clear only removes this value's keys |
| SupabaseClient.SplitIntoChunks | src/lib/supabase.ts:62-65 | the slicing loop computes `Chunks(value)` |
| SupabaseClient.StoreChunks | src/lib/supabase.ts:67-69 | on an accessible store every part is stored; storing sets chunk key i to part i for every part, and never touches another value's keys |
| SupabaseClient.WriteNativeValue | src/lib/supabase.ts:54-72 | on an accessible store the write succeeds and leaves `Written`, so `WriteThenRead` applies; a failed write only touches this value's keys |
| SupabaseClient.GetItem | src/lib/supabase.ts:75-88 | on an accessible store getItem returns the stored value under the prefixed key; when the store fails it returns null, never anything else |
| SupabaseClient.SetItem | src/lib/supabase.ts:89-109 | on an accessible store setItem succeeds and writes under the prefixed key; a store error is passed on, and only the prefixed key's entries change |
| SupabaseClient.RemoveItem | src/lib/supabase.ts:110-125 | on an accessible store removeItem leaves `Cleared` for the prefixed key; when a delete fails part way the error is swallowed and only keys of the prefixed key are gone |
| SupabaseClient.CreateSupabaseClient | src/lib/supabase.ts:128-151 | creating the client fails exactly when the trimmed URL, then the trimmed anon key, is missing or empty; otherwise it carries both trimmed values and a bearer header exactly when a token was given |
| SupabaseHook.NormalizeBdPhone | src/app/hooks/useSupabase.ts:5-25 | the normalised phone is all digits, and it is either 11 long or the digits of the input unchanged |
| SupabaseHook.NormalizeIdempotent | src/app/hooks/useSupabase.ts:5-25 | normalising twice is the same as normalising once |
| SupabaseHook.NormalizeKeepsBdMobile | src/app/hooks/useSupabase.ts:16-17 | a valid `01` followed by 9 digits number is left unchanged |
| SupabaseHook.NormalizeCountryCode | src/app/hooks/useSupabase.ts:8-13 | `00880`, `880` and `+880` followed by ten digits all become `0` followed by those digits |
| SupabaseHook.NormalizeLocalTen | src/app/hooks/useSupabase.ts:20-21 | ten digits starting with `1` get a leading `0` |
| SupabaseHook.IsBdMobile | src/app/hooks/useSupabase.ts:433 | the test `/^01\d{9}$/`: 11 digits starting with `01` |
| SupabaseHook.Round2 | src/app/hooks/useSupabase.ts:244 | `Number(x.toFixed(2))` on reals, half away from zero; its properties are `Round2Bounds` and `Round2OfCents` |
| SupabaseHook.Round2Bounds | src/app/hooks/useSupabase.ts:244 | `Number(x.toFixed(2))` is within half a cent of `x` and keeps its sign |
| SupabaseHook.Round2OfCents | src/app/hooks/useSupabase.ts:461-462 | rounding an amount that is already whole cents changes nothing |
| SupabaseHook.TotalCost | src/app/hooks/useSupabase.ts:244 | the stored total cost of a non-negative cost and stock is non-negative |
| SupabaseHook.StockTotalCost | src/app/hooks/useSupabase.ts:371 | a stock row's derived total cost is non-negative when its inputs are |
| SupabaseHook.StockFieldsError | src/app/hooks/useSupabase.ts:221-235 | the first failing check is reported, in the source's order (name, unit, cost > 0, opening stock >= 0), and no error means all four hold |
| SupabaseHook.ValidateCreateStock | src/app/hooks/useSupabase.ts:209-236 | createStock's checks: not signed in gives its error first; an accepted row has trimmed name and unit, positive cost, non-negative opening stock (default 0) and nothing sold |
| SupabaseHook.ValidateUpdateStock | src/app/hooks/useSupabase.ts:321-362 | updateStock's checks add the id and total-sold checks; an accepted row carries every field as given, trimmed |
| SupabaseHook.PartyFieldsError | src/app/hooks/useSupabase.ts:429-443 | the first failing party check in order (name, `^01\d{9}$` phone, payable, receivable), and none exactly when all hold |
| SupabaseHook.CleanDescription | src/app/hooks/useSupabase.ts:463 | `description?.trim() \|\| null`: absent or blank becomes null, otherwise the trimmed text |
| SupabaseHook.ValidateCreateParty | src/app/hooks/useSupabase.ts:408-466 | createCustomerSupplier's checks and payload: normalised phone, amounts rounded to cents, record date defaulting to today, avatar defaulting to null |
| SupabaseHook.ValidateUpdateParty | src/app/hooks/useSupabase.ts:530-608 | updateCustomerSupplier's checks in order and its patch: the trimmed id, the party type, the trimmed name, the normalised phone, the amounts rounded to cents with 0 for an absent one, and description, date and avatar sent exactly when given |
| SupabaseHook.ValidateDeleteParty | src/app/hooks/useSupabase.ts:638-651 | delete needs a signed-in user and a non-blank id, and uses the trimmed id |
| SupabaseHook.ApplyPatch | src/app/hooks/useSupabase.ts:581-612 | the five columns always sent are overwritten; each optional column is overwritten when sent (an explicit null avatar clears it) and keeps its stored value otherwise; a valid patch keeps the row valid |
| SupabaseHook.ApplyPatchIdempotent | src/app/hooks/useSupabase.ts:581-612 | sending the same update twice leaves the row as sending it once |
| SupabaseHook.UpdatedRowReflectsInput | src/app/hooks/useSupabase.ts:530-612 | after an accepted update the row holds the trimmed name, normalised phone and rounded amounts of the arguments, and each optional column holds its argument when given and its old value otherwise |
| SupabaseHook.ActiveFor | src/app/hooks/useSupabase.ts:296-304 | the listing holds exactly the active rows of this user and business |
| SupabaseHook.ActiveForIncreasing | src/app/hooks/useSupabase.ts:296-304 | filtering keeps the rows in creation order |
| SupabaseHook.Reverse | src/app/hooks/useSupabase.ts:304 | reversal puts the last row first |
| SupabaseHook.ReverseDecreasing | src/app/hooks/useSupabase.ts:304 | reversing rows in creation order gives strictly newest-first order |
| SupabaseHook.NewestFirst | src/app/hooks/useSupabase.ts:304 | `order("created_at", { ascending: false })` over rows kept in creation order; its property is `NewestFirstOrdered` |
| SupabaseHook.NewestFirstOrdered | src/app/hooks/useSupabase.ts:296-310 | getStocks and getCustomerSuppliers list their rows newest first |
| SupabaseHook.UpdateInScope | src/app/hooks/useSupabase.ts:373-389 | an update changes the data of the rows matching id, user and business, and no other row or field |
| SupabaseHook.DeactivateInScope | src/app/hooks/useSupabase.ts:661-668 | a soft delete clears `is_active` on the matching rows and changes nothing else |
| SupabaseHook.FindInScope | src/app/hooks/useSupabase.ts:383-389 | `.single()` finds a matching row, or reports that none matches |
| SupabaseHook.SoftDeleteHides | src/app/hooks/useSupabase.ts:661-668 | after delete the row no longer appears in the active listing, while every other row is as it was |
| SupabaseHook.UpdateKeepsTimes | src/app/hooks/useSupabase.ts:373-389 | an update keeps creation times, so the listing order is kept |
| SupabaseHook.DeactivateKeepsTimes | src/app/hooks/useSupabase.ts:661-668 | a soft delete keeps creation times |
| SupabaseHook.DeactivateKeepsInvariant | src/app/hooks/useSupabase.ts:661-668 | a soft delete keeps every party row valid |
| SupabaseHook.PatchKeepsInvariant | src/app/hooks/useSupabase.ts:598-619 | applying a validated patch keeps every party row valid |
| SupabaseHook.StockUpdateKeepsInvariant | src/app/hooks/useSupabase.ts:373-389 | applying validated stock data keeps every stock row valid |
| SupabaseHook.LatestBusiness | src/app/hooks/useSupabase.ts:144-155 | the newest-first `limit(1)` query returns a business of this user, and none exactly when the user has none |
| SupabaseHook.UpsertedOrKept | src/app/hooks/useSupabase.ts:122-134 | what a hook call may do to the businesses table: nothing, or the get-or-create upsert for the signed-in user |
| SupabaseHook.UpsertConverges | src/app/hooks/useSupabase.ts:122-134 | the upsert that ignores duplicates on `user_id` keeps one business per user, leaves an existing one alone, and a second upsert changes nothing |
| SupabaseHook.Upserted | src/app/hooks/useSupabase.ts:122-134 | the businesses table after the upsert that ignores duplicates on `user_id`; its properties are `UpsertConverges` |
| SupabaseHook.Backend.constructor | src/app/hooks/useSupabase.ts:76-102 | the database starts empty and valid |
| SupabaseHook.Backend.UpsertBusiness | src/app/hooks/useSupabase.ts:122-134 | an online backend always answers; the upsert adds a business only for a user who has none, and returns the inserted row or nothing |
| SupabaseHook.Backend.SelectLatestBusiness | src/app/hooks/useSupabase.ts:189-194 | an online backend always answers with the user's latest business |
| SupabaseHook.Backend.InsertStock | src/app/hooks/useSupabase.ts:246-261 | an online backend always answers; an insert appends one active row with the given owner and data, and a failure changes nothing |
| SupabaseHook.Backend.InsertParty | src/app/hooks/useSupabase.ts:453-470 | an online backend always answers; an insert appends one active party row, and a failure changes nothing |
| SupabaseHook.Backend.SelectStocks | src/app/hooks/useSupabase.ts:296-304 | an online backend always answers with the active stocks of the user and business, newest first |
| SupabaseHook.Backend.SelectParties | src/app/hooks/useSupabase.ts:505-513 | an online backend always answers with the active parties of the user and business, newest first |
| SupabaseHook.Backend.UpdateStockRow | src/app/hooks/useSupabase.ts:373-389 | the update with `.single()` succeeds when the backend is online and one row matches, and only when one matches; it rewrites that row's data |
| SupabaseHook.Backend.UpdatePartyRow | src/app/hooks/useSupabase.ts:610-619 | the party update succeeds when the backend is online and one row matches, and only when one matches; it applies the patch to that row and returns the row with the patched data |
| SupabaseHook.Backend.DeactivatePartyRow | src/app/hooks/useSupabase.ts:661-668 | the soft delete succeeds when the backend is online and one row matches, and only when one matches; it deactivates that row |
| SupabaseHook.UseSupabase.constructor | src/app/hooks/useSupabase.ts:104-109 | the hook starts with `loading` unset |
| SupabaseHook.UseSupabase.GetOrCreateBusiness | src/app/hooks/useSupabase.ts:111-174 | no business and no change when signed out; signed in and online, it returns a business and the table is the upsert of the default business; a returned business is the user's latest; an existing business is never replaced; the table changes by that upsert or not at all; errors become null |
| SupabaseHook.UseSupabase.GetBusiness | src/app/hooks/useSupabase.ts:180-207 | no business when signed out; signed in and online, exactly the user's latest business; otherwise that business or null |
| SupabaseHook.UseSupabase.CreateStock | src/app/hooks/useSupabase.ts:209-278 | validation errors are returned unchanged; a valid request succeeds when the backend is online; success appends exactly the validated row under the user's business; every failure leaves the stocks as they were; the businesses table changes only by the get-or-create upsert |
| SupabaseHook.UseSupabase.GetStocks | src/app/hooks/useSupabase.ts:280-319 | empty when signed out or without a business; only ever the active stocks of the user's latest business, newest first; signed in and online, exactly those |
| SupabaseHook.UseSupabase.UpdateStock | src/app/hooks/useSupabase.ts:321-406 | validation errors are returned unchanged; with a valid request and an online backend the user's latest business exists and the update succeeds when exactly one of its rows has the id; success rewrites exactly the one matching row of the user's latest business; a failure changes no stock; the businesses table changes only by the get-or-create upsert |
| SupabaseHook.UseSupabase.CreateCustomerSupplier | src/app/hooks/useSupabase.ts:408-487 | validation errors are returned unchanged; a valid request succeeds when the backend is online; success appends exactly the validated party; later failures are a missing business or a backend error; the businesses table changes only by the get-or-create upsert |
| SupabaseHook.UseSupabase.GetCustomerSuppliers | src/app/hooks/useSupabase.ts:489-528 | empty when signed out or without a business; only ever the active parties of the user's latest business, newest first; signed in and online, exactly those |
| SupabaseHook.UseSupabase.UpdateCustomerSupplier | src/app/hooks/useSupabase.ts:530-636 | with a valid request and an online backend the user's latest business exists and the update succeeds when exactly one of its rows has the trimmed id; success applies the validated patch to exactly the one row with the trimmed id and returns the row with the patched data; a failure changes no party; the businesses table changes only by the get-or-create upsert |
| SupabaseHook.UseSupabase.DeleteCustomerSupplier | src/app/hooks/useSupabase.ts:638-685 | with a valid id and an online backend the user's latest business exists and the delete succeeds when exactly one of its rows has the trimmed id; success returns true and soft-deletes exactly the one row with the trimmed id; a failure changes no party; the businesses table changes only by the get-or-create upsert |
| StockScreen.UnitOptionsNotBlank | src/app/stock.tsx:43 | every unit offered by the picker is non-blank |
| StockScreen.ParseOrZero | src/app/stock.tsx:44-51 | an empty field counts as 0, anything else is parsed |
| StockScreen.CreateGateOpen | src/app/stock.tsx:44-57 | the create button is enabled: non-blank name, a unit chosen, cost finite and > 0, opening stock finite and >= 0 (0 when empty); `CreateGateSound` relates it to the hook |
| StockScreen.CreateRequest | src/app/stock.tsx:137-142 | every field of the create request: the typed name, the chosen unit, the parsed cost and the opening stock with 0 for empty |
| StockScreen.CreateGateSound | src/app/stock.tsx:44-57 | when the save button is enabled, createStock's validation accepts the request whenever the user is signed in |
| StockScreen.UpdateRequest | src/app/stock.tsx:183-190 | every field of the update request: the edited id, name and unit, the parsed cost, and the opening stock and total sold with 0 for empty |
| StockScreen.UpdateIgnoresTotalCost | src/app/stock.tsx:59-82 | the total-cost field only gates the button; it never reaches the request |
| StockScreen.EditGateOpen | src/app/stock.tsx:59-82 | the update button is enabled: an editing id, non-blank name, a unit, positive cost, and non-negative opening stock, total cost and total sold; `EditGateSound` relates it to the hook |
| StockScreen.EditGateSound | src/app/stock.tsx:59-82 | when the update button is enabled, updateStock's validation accepts the request whenever the user is signed in |
| StockScreen.EditFormOf | src/app/stock.tsx:159-168 | opening the modal copies the row's id, name and unit, and shows its cost, opening stock, derived total cost and total sold as text |
| StockScreen.ReopenedRowRoundTrips | src/app/stock.tsx:159-190 | when printing and parsing back the row's cost, opening stock and total sold give the same numbers, saving an unedited row sends back exactly its stored values |
| StockScreen.RowBalance | src/app/stock.tsx:374-375 | a row's balance, total cost minus total sold, is what the totals card shows for a list of that row alone |
| StockScreen.ComputeTotals | src/app/stock.tsx:103-120 | the totals count the rows and the balance is total cost minus total sold |
| StockScreen.TotalsBalanceIsSumOfRows | src/app/stock.tsx:103-120 | the card's balance equals the sum of the per-row balances shown in the list (lines 374-375) |
| StockScreen.TotalsNonNegative | src/app/stock.tsx:103-120 | over valid rows, total cost and total sold are non-negative |
| StockScreen.StockScreen.constructor | src/app/stock.tsx:20-40 | the screen starts with empty forms, no rows and nothing in progress |
| StockScreen.StockScreen.Valid | src/app/stock.tsx:43 | the hook is valid and a chosen create unit is non-blank, as every unit of the picker is |
| StockScreen.StockScreen.LoadStocks | src/app/stock.tsx:84-97 | refreshing touches nothing but the list; the list is empty when signed out, only ever the newest-first active stocks of the user's latest business, and exactly those when the backend is online |
| StockScreen.StockScreen.HandleSaveStock | src/app/stock.tsx:129-157 | a disabled or busy save does nothing, and an enabled one always runs and succeeds when the user is signed in and the backend online; success appends the validated row, clears the form, notifies and reloads; failure keeps the form and the list and reports the hook's error; the businesses table changes only by the get-or-create upsert; the modal, the picker and the update flag are never touched |
| StockScreen.StockScreen.SendCreate | src/app/stock.tsx:135-142 | the create call of an open gate: it succeeds when signed in and online, appends exactly the validated row on success and leaves the stocks alone on failure |
| StockScreen.StockScreen.ShowSaved | src/app/stock.tsx:144-149 | after a save: the success notice, the create form cleared (unit included) and the list reloaded; the modal, the edit form and the flags are untouched |
| StockScreen.StockScreen.OpenEditModal | src/app/stock.tsx:159-168 | opening the modal fills the edit form from the row and changes no other field |
| StockScreen.StockScreen.CloseEditModal | src/app/stock.tsx:170-173 | closing the modal forgets which stock was being edited and changes no other field |
| StockScreen.StockScreen.HandleUpdateStock | src/app/stock.tsx:175-202 | a disabled or busy update does nothing, and an enabled one always runs; signed in and online with a non-blank id and unit, the user has a latest business and the update succeeds when exactly one of its rows has that id; a validation error reaches the user unchanged; success closes the modal, notifies, returns the row with the edited id and the validated data in the user's latest business, where exactly one row matched, and leaves the stocks table as the scoped update of that row; failure keeps the modal and the list and changes no stock; the businesses table changes only by the get-or-create upsert |
| StockScreen.StockScreen.SubmitEdit | src/app/stock.tsx:180-201 | the update past its gate: the same promises as `HandleUpdateStock` for the call, the report and the reload |
| StockScreen.StockScreen.SendEdit | src/app/stock.tsx:181-190 | the update call: signed in and online it finds the latest business and succeeds when one row matches; a validation error is returned as is; success rewrites exactly that row with the validated data |
| StockScreen.StockScreen.ReportUpdate | src/app/stock.tsx:192-200 | after the call: success notifies, closes the modal (forgetting the edited id) and reloads; failure notifies with the hook's error and keeps the modal and the list; the update flag is cleared either way |
| StockScreen.StockScreen.OpenUnitPicker | src/app/stock.tsx:245 | the picker opens for the create or the edit form, and nothing else changes |
| StockScreen.StockScreen.PickUnit | src/app/stock.tsx:454-461 | picking a unit sets it on the form the picker was opened for and closes the picker; no flag or list changes |
| StockScreen.StockScreen.ClosePicker | src/app/stock.tsx:436 | dismissing the picker changes nothing else |
| CustomerSupplierScreen.KeepAmountChars | src/app/customer_supplier.tsx:75-81 | the amount filter keeps only digits and dots and never lengthens the text |
| CustomerSupplierScreen.KeepAmountCharsOfClean | src/app/customer_supplier.tsx:75-81 | text of digits and dots passes unchanged |
| CustomerSupplierScreen.KeepAmountCharsIdempotent | src/app/customer_supplier.tsx:75-81 | filtering twice is filtering once |
| CustomerSupplierScreen.KeepAmountCharsAppend | src/app/customer_supplier.tsx:75-81 | the filter works character by character: filtering a concatenation concatenates the filtered parts |
| CustomerSupplierScreen.KeepAmountCharsKeepsDots | src/app/customer_supplier.tsx:75-81 | every dot survives, so `1.2.3` stays as typed |
| CustomerSupplierScreen.KeepAmountCharsKeepsDigits | src/app/customer_supplier.tsx:75-81 | every digit survives |
| CustomerSupplierScreen.SubmitDisabled | src/app/customer_supplier.tsx:144-149 | the button is disabled exactly when the trimmed name is empty, the normalised phone is not `01` plus 9 digits, or a save is running; `SubmitGateSound` relates it to the hook |
| CustomerSupplierScreen.ClampAmount | src/app/customer_supplier.tsx:159-173 | the amount sent is never negative: 0 for empty, negative or non-finite input, otherwise the parsed value |
| CustomerSupplierScreen.FallbackAvatarUri | src/app/customer_supplier.tsx:64-66 | the DiceBear `lorelei` URL for a seed; its properties are `FallbackAvatarSeed` and `FallbackAvatarInjective` |
| CustomerSupplierScreen.InitialForm | src/app/customer_supplier.tsx:50-62 | the form's initial state: a customer, every text empty, today's date, no avatar |
| CustomerSupplierScreen.FallbackAvatarSeed | src/app/customer_supplier.tsx:64-66 | the fallback avatar URL carries the seed verbatim between the fixed prefix and suffix |
| CustomerSupplierScreen.FallbackAvatarInjective | src/app/customer_supplier.tsx:64-66 | distinct seeds give distinct fallback avatars |
| CustomerSupplierScreen.SubmitRequest | src/app/customer_supplier.tsx:175-184 | the submitted request carries the party type, the name, the normalised phone, the clamped amounts, the form's date and description, and the picked avatar or else the fallback |
| CustomerSupplierScreen.SubmitGateSound | src/app/customer_supplier.tsx:144-184 | when the submit button is enabled, the hook's validation accepts the request whenever the user is signed in, keeping the normalised phone |
| CustomerSupplierScreen.PhonebookPhone | src/app/customer_supplier.tsx:104-108 | the phone taken from a contact is the normalised number cut to 11 digits |
| CustomerSupplierScreen.PhonebookKeepsMobile | src/app/customer_supplier.tsx:104-108 | a contact with a valid Bangladeshi mobile number fills in exactly that number, and it stays valid |
| CustomerSupplierScreen.CustomerSupplierScreen.constructor | src/app/customer_supplier.tsx:50-62 | the form starts empty, as a customer, dated today |
| CustomerSupplierScreen.CustomerSupplierScreen.HandlePhoneChange | src/app/customer_supplier.tsx:70-73 | typing a phone stores it normalised |
| CustomerSupplierScreen.CustomerSupplierScreen.HandleAmountChange | src/app/customer_supplier.tsx:75-81 | typing an amount stores the filtered text in the field it was typed into |
| CustomerSupplierScreen.CustomerSupplierScreen.HandlePickFromPhonebook | src/app/customer_supplier.tsx:83-109 | a refused permission only notifies; a picked contact fills in its name and phone; a cancelled pick changes nothing |
| CustomerSupplierScreen.CustomerSupplierScreen.HandlePickImage | src/app/customer_supplier.tsx:111-134 | a refused permission only notifies; a picked image becomes the avatar; a cancelled pick changes nothing |
| CustomerSupplierScreen.CustomerSupplierScreen.RefreshAvatar | src/app/customer_supplier.tsx:253-257 | the refresh button drops the picked photo and takes a new seed, so the request would carry the new seed's fallback avatar; nothing else changes |
| CustomerSupplierScreen.CustomerSupplierScreen.HandleSubmit | src/app/customer_supplier.tsx:151-203 | a disabled or busy submit changes nothing at all, in the screen or the backend, and an enabled one always runs and succeeds when the user is signed in and the backend online; success appends the validated party, resets the form and goes back; failure keeps the form and reports an auth, business or backend error; the businesses table changes only by the get-or-create upsert |
| CustomerSupplierScreen.CustomerSupplierScreen.FinishSubmit | src/app/customer_supplier.tsx:186-201 | after the call: success resets the form to its initial state, notifies and goes back; failure keeps the form and reports the error; the saving flag is cleared either way |
| SocialAuth.ProviderLabel | src/app/hooks/useAuthentication.ts:27-28 | each strategy has its own provider name, and that name belongs to no other strategy |
| SocialAuth.Incomplete | src/app/hooks/useAuthentication.ts:26 | `!createdSessionId \|\| !setActive`: no session id, an empty one, or no `setActive` |
| SocialAuth.FinishEffects | src/app/hooks/useAuthentication.ts:20-44 | what the handler asks of the world after the flow settles: an error notice when it threw, an incomplete notice, or activation followed by navigation to `/(tabs)` (or by an error notice when activation threw); its properties are the four lemmas below |
| SocialAuth.NavigatesIffActivated | src/app/hooks/useAuthentication.ts:26-39 | the app navigates home exactly when a non-empty session came back with `setActive` and activation succeeded |
| SocialAuth.ActivatesCreatedSessionFirst | src/app/hooks/useAuthentication.ts:38 | only the session the flow created is activated, and that happens first |
| SocialAuth.IncompleteOnlyNotifies | src/app/hooks/useAuthentication.ts:26-36 | an incomplete sign-in shows its notice and nothing else |
| SocialAuth.FailureNamesProvider | src/app/hooks/useAuthentication.ts:26-44 | the handler shows a notice exactly when it does not navigate, and every notice names the chosen provider |
| SocialAuth.UseAuthentication.constructor | src/app/hooks/useAuthentication.ts:11 | no flow is in progress at first |
| SocialAuth.UseAuthentication.Start | src/app/hooks/useAuthentication.ts:15-24 | a flow starts only when none is in progress; it records the strategy and asks for the `/sso-callback` redirect (`RedirectPath`) |
| SocialAuth.UseAuthentication.Finish | src/app/hooks/useAuthentication.ts:20-47 | however the flow ends, the loading strategy is cleared and the effects are those of the outcome |
| SocialAuth.UseAuthentication.HandleSocialAuth | src/app/hooks/useAuthentication.ts:15-48 | a second call during a flow changes nothing; otherwise one whole flow runs and ends with no flow in progress |

## Left out

- The web branches of the storage adapter (`Platform.OS === "web"`, `window.localStorage`, src/lib/supabase.ts:78-79, 92-97, 113-118) are not modelled. Only the native secure-store path is.
- ChunksSpec: lengths and slices count Dafny characters (Unicode code points), while `value.length` and `value.slice` count UTF-16 code units, so for values with characters outside the Basic Multilingual Plane the 1800 threshold and the chunk boundaries differ from the source's, and a JavaScript slice can split a surrogate pair.
- WriteThenRead: the round trip is proved for code-point chunks; whether the source's round trip survives a chunk boundary inside a surrogate pair depends on the native store keeping lone surrogates, which is not modelled.
- Size limits and the keychain behaviour of the native secure store are not modelled. A store call either succeeds or fails as a whole.
- `console.log`/`console.warn`, `Alert.alert` wording, `router.back`/`router.replace`, `Linking.createURL`, `Date`, `Math.random` and the image, contact and date pickers are outside the model. They are parameters (`today`, `avatarSeed`, `granted`, `picked`) or entries in an effect log.
- The Clerk session (`isLoaded`, `isSignedIn`, `user.id`) is the `Auth` parameter. Supabase row-level security, request headers and network concurrency are not modelled.
- Floating point: JavaScript numbers are reals, `parseFloat` is a parameter, and `toFixed(2)` is rounding half away from zero on reals.
- React re-rendering, stale closures and interleaving of concurrent async calls are not modelled. Each handler runs to completion without interleaving, and the `isSaving`/`loadingStrategy` guards are checked at entry.
- `setBusiness` (useSupabase.ts:176-178) is a direct alias of `getOrCreateBusiness` and has no member of its own.
- The screen's plain text setters (product name, cost, description, party type, date picker) assign a field and are not modelled one by one.
- `createSupabaseClient` failures inside the hook are folded into backend errors. The `Backend.online` flag stands for any error the client returns.
- The `online` and `accessible` flags are fixed for the life of a backend or a store. A connection that drops part way through an operation is covered only in that an offline backend or store may fail any call; the model does not say which calls succeed before it drops.
- SupabaseHook.UseSupabase.GetOrCreateBusiness: the message text of the error it logs and swallows is not modelled; only the null result is.
- StockScreen.StockScreen.Valid: the screen only promises the chosen unit is non-blank, not that it comes from the picker's list, because `handleOpenEditModal` copies the stored row's unit.
- StockScreen.StockScreen.HandleUpdateStock: the list held by the screen after the reload that follows a success is not stated; `LoadStocks` states it on its own.
- StockScreen.StockScreen.HandleSaveStock: likewise, the reloaded list is not stated, only the new row in the stocks table.

=== FILE: customer_supplier_screen.dfy ===
/**
 * The add-customer/supplier screen of src/app/customer_supplier.tsx: the amount filter,
 * the submit gate, the amount clamping, the phonebook import and the submit handler.
 * The screen's own `normalizeBdPhone` is the same function as the hook's, so the hook's
 * `NormalizeBdPhone` is used for both. `Number.parseFloat` is the screen's `parse`.
 */
module CustomerSupplierScreen {
  import opened Wrappers
  import opened Text
  import opened SupabaseHook

  // ---------------------------------------------------------------- amount filter

  predicate IsAmountChar(c: char) { IsDigit(c) || c == '.' }

  /** `value.replace(/[^0-9.]/g, "")`: the digits and dots of the input, in order. */
  function KeepAmountChars(s: string): (r: string)
    ensures |r| <= |s|
    ensures forall i :: 0 <= i < |r| ==> IsAmountChar(r[i])
  {
    if s == [] then []
    else if IsAmountChar(s[0]) then [s[0]] + KeepAmountChars(s[1..])
    else KeepAmountChars(s[1..])
  }

  /** Filtering text that already holds only digits and dots leaves it alone. */
  lemma {:induction false} KeepAmountCharsOfClean(s: string)
    requires forall i :: 0 <= i < |s| ==> IsAmountChar(s[i])
    ensures KeepAmountChars(s) == s
  {
    if s != [] {
      KeepAmountCharsOfClean(s[1..]);
    }
  }

  /** Typing into an amount field twice in a row filters nothing more. */
  lemma KeepAmountCharsIdempotent(s: string)
    ensures KeepAmountChars(KeepAmountChars(s)) == KeepAmountChars(s)
  {
    KeepAmountCharsOfClean(KeepAmountChars(s));
  }

  /** The filter works character by character: it distributes over concatenation. */
  lemma {:induction false} KeepAmountCharsAppend(a: string, b: string)
    ensures KeepAmountChars(a + b) == KeepAmountChars(a) + KeepAmountChars(b)
  {
    if a != [] {
      assert (a + b)[1..] == a[1..] + b;
      KeepAmountCharsAppend(a[1..], b);
    } else {
      assert a + b == b;
    }
  }

  function CountChar(s: string, c: char): nat {
    if s == [] then 0 else (if s[0] == c then 1 else 0) + CountChar(s[1..], c)
  }

  /** Every dot survives the filter: nothing limits the field to one decimal point. */
  lemma {:induction false} KeepAmountCharsKeepsDots(s: string)
    ensures CountChar(KeepAmountChars(s), '.') == CountChar(s, '.')
  {
    if s != [] {
      KeepAmountCharsKeepsDots(s[1..]);
      if IsAmountChar(s[0]) {
        assert ([s[0]] + KeepAmountChars(s[1..]))[1..] == KeepAmountChars(s[1..]);
      }
    }
  }

  /** Every digit survives the filter too. */
  lemma {:induction false} KeepAmountCharsKeepsDigits(s: string, d: char)
    requires IsDigit(d)
    ensures CountChar(KeepAmountChars(s), d) == CountChar(s, d)
  {
    if s != [] {
      KeepAmountCharsKeepsDigits(s[1..], d);
      if IsAmountChar(s[0]) {
        assert ([s[0]] + KeepAmountChars(s[1..]))[1..] == KeepAmountChars(s[1..]);
      }
    }
  }

  // ---------------------------------------------------------------- gate and request

  /** `isSubmitDisabled`: a blank name, a phone that does not normalize to `^01\d{9}$`, or a save in flight. */
  predicate SubmitDisabled(name: string, phone: string, isSaving: bool) {
    Blank(name) || !IsBdMobile(NormalizeBdPhone(phone)) || isSaving
  }

  /**
   * `trim().length ? parseFloat : 0`, then anything not finite and non-negative becomes 0:
   * the amount sent is always a finite number at least 0.
   */
  function ClampAmount(parse: string -> Num, text: string): (n: real)
    ensures n >= 0.0
    ensures Blank(text) ==> n == 0.0
    ensures !Blank(text) && IsNonNegative(parse(text)) ==> n == parse(text).value
    ensures !Blank(text) && !IsNonNegative(parse(text)) ==> n == 0.0
  {
    TrimEmptyIffBlank(text);
    var raw := if Trim(text) != "" then parse(text) else Finite(0.0);
    if raw.Finite? && raw.value >= 0.0 then raw.value else 0.0
  }

  /** The URI used when no photo was picked; the seed comes from `Math.random`. */
  function FallbackAvatarUri(seed: string): string {
    AvatarPrefix + seed + AvatarSuffix
  }

  const AvatarPrefix := "https://api.dicebear.com/7.x/lorelei/png?seed="
  const AvatarSuffix := "&backgroundColor=d9d7dc,0984a5,e3954d"

  /** The seed can be read back out of the fallback URI, so different seeds give different avatars. */
  lemma FallbackAvatarSeed(seed: string)
    ensures |FallbackAvatarUri(seed)| == |AvatarPrefix| + |seed| + |AvatarSuffix|
    ensures FallbackAvatarUri(seed)[|AvatarPrefix|..|AvatarPrefix| + |seed|] == seed
  {
  }

  lemma FallbackAvatarInjective(s: string, t: string)
    ensures FallbackAvatarUri(s) == FallbackAvatarUri(t) ==> s == t
  {
    FallbackAvatarSeed(s);
    FallbackAvatarSeed(t);
  }

  datatype AmountField = Payable | Receivable

  /** The screen's fields; `recordDate` is held as the ISO day `toIsoDate` makes of it. */
  datatype PartyForm = PartyForm(
    partyType: PartyType, name: string, phone: string,
    totalPayable: string, totalReceivable: string, description: string,
    recordDate: string, avatarUri: Option<string>)

  /** The initial state, and the state a successful save returns to; `today` is `new Date()`. */
  function InitialForm(today: string): PartyForm {
    PartyForm(Customer, "", "", "", "", "", today, None)
  }

  /** The argument `handleSubmit` passes to `createCustomerSupplier`. */
  function SubmitRequest(parse: string -> Num, f: PartyForm, seed: string): (input: CreatePartyInput)
    ensures input.partyType == f.partyType
    ensures input.phone == NormalizeBdPhone(f.phone) && input.name == f.name
    ensures input.totalPayable == Some(Finite(ClampAmount(parse, f.totalPayable)))
    ensures input.totalReceivable == Some(Finite(ClampAmount(parse, f.totalReceivable)))
    ensures input.recordDate == Some(f.recordDate) && input.description == Some(f.description)
    ensures input.avatarUrl == Some(Some(if f.avatarUri.Some? then f.avatarUri.value else FallbackAvatarUri(seed)))
  {
    CreatePartyInput(
      f.partyType, f.name, NormalizeBdPhone(f.phone),
      Some(Finite(ClampAmount(parse, f.totalPayable))), Some(Finite(ClampAmount(parse, f.totalReceivable))),
      Some(f.description), Some(f.recordDate),
      Some(Some(if f.avatarUri.Some? then f.avatarUri.value else FallbackAvatarUri(seed))))
  }

  /**
   * The gate is at least as strict as the hook: once auth is ready, a form the gate lets
   * through passes every check of `createCustomerSupplier`, and the stored phone is the
   * number the gate looked at.
   */
  lemma SubmitGateSound(parse: string -> Num, f: PartyForm, seed: string, auth: Auth, today: string)
    requires !SubmitDisabled(f.name, f.phone, false)
    ensures Ready(auth) ==> ValidateCreateParty(auth, SubmitRequest(parse, f, seed), today).Ok?
    ensures Ready(auth) ==> ValidateCreateParty(auth, SubmitRequest(parse, f, seed), today).value.phone == NormalizeBdPhone(f.phone)
    ensures !Ready(auth) ==> ValidateCreateParty(auth, SubmitRequest(parse, f, seed), today) == Err(AuthNotReady)
  {
    NormalizeIdempotent(f.phone);
  }

  /** `normalizeBdPhone(firstNumber).slice(0, 11)` */
  function PhonebookPhone(number: string): (r: string)
    ensures |r| <= 11 && AllDigits(r) && r <= NormalizeBdPhone(number)
    ensures |NormalizeBdPhone(number)| <= 11 ==> r == NormalizeBdPhone(number)
  {
    var n := NormalizeBdPhone(number);
    if |n| <= 11 then n else n[..11]
  }

  /** A phonebook number that normalizes to a mobile number is imported whole and opens the phone check. */
  lemma PhonebookKeepsMobile(number: string)
    requires IsBdMobile(NormalizeBdPhone(number))
    ensures PhonebookPhone(number) == NormalizeBdPhone(number)
    ensures IsBdMobile(NormalizeBdPhone(PhonebookPhone(number)))
  {
    NormalizeIdempotent(number);
  }

  // ---------------------------------------------------------------- the screen

  /** A picked contact; an empty string stands for a missing name or number. */
  datatype Contact = Contact(name: string, firstNumber: string)

  /** What the screen does besides changing its own fields. */
  datatype Effect = Saved | Failed(error: DataError) | PermissionRequired | WentBack

  class CustomerSupplierScreen {
    const api: UseSupabase
    const parse: string -> Num
    /** `avatarSeed`, drawn when the screen opens and again by the refresh button. */
    var avatarSeed: string

    /** partyType, name, phone, totalPayable, totalReceivable, description, recordDate, avatarUri */
    var form: PartyForm
    var isSaving: bool
    var effects: seq<Effect>

    ghost predicate Valid()
      reads this, api, api.db
    {
      api.Valid()
    }

    constructor (api: UseSupabase, parse: string -> Num, avatarSeed: string, today: string)
      requires api.Valid()
      ensures Valid() && this.api == api && this.parse == parse && this.avatarSeed == avatarSeed
      ensures form == InitialForm(today) && !isSaving && effects == []
    {
      this.api := api;
      this.parse := parse;
      this.avatarSeed := avatarSeed;
      form := InitialForm(today);
      isSaving := false;
      effects := [];
    }

    /** `handlePhoneChange`: the field always holds a normalized number. */
    method HandlePhoneChange(value: string)
      requires Valid()
      modifies this
      ensures Valid() && form == old(form).(phone := NormalizeBdPhone(value))
      ensures isSaving == old(isSaving) && effects == old(effects) && avatarSeed == old(avatarSeed)
    {
      form := form.(phone := NormalizeBdPhone(value));
    }

    /** `handleAmountChange(value, setter)` for one of the two amount fields. */
    method HandleAmountChange(field: AmountField, value: string)
      requires Valid()
      modifies this
      ensures Valid() && isSaving == old(isSaving) && effects == old(effects) && avatarSeed == old(avatarSeed)
      ensures field == Payable ==> form == old(form).(totalPayable := KeepAmountChars(value))
      ensures field == Receivable ==> form == old(form).(totalReceivable := KeepAmountChars(value))
    {
      match field
      case Payable => form := form.(totalPayable := KeepAmountChars(value));
      case Receivable => form := form.(totalReceivable := KeepAmountChars(value));
    }

    /**
     * `handlePickFromPhonebook`: `granted` is the permission answer and `picked` the
     * contact chosen (None when the picker was dismissed).
     */
    method HandlePickFromPhonebook(granted: bool, picked: Option<Contact>)
      requires Valid()
      modifies this
      ensures Valid() && isSaving == old(isSaving) && avatarSeed == old(avatarSeed)
      ensures !granted ==> form == old(form) && effects == old(effects) + [PermissionRequired]
      ensures granted ==> effects == old(effects)
      ensures granted && picked.None? ==> form == old(form)
      ensures granted && picked.Some? ==>
        && form.name == (if picked.value.name != "" then picked.value.name else old(form).name)
        && form.phone == (if picked.value.firstNumber != "" then PhonebookPhone(picked.value.firstNumber) else old(form).phone)
        && form == old(form).(name := form.name, phone := form.phone)
    {
      if !granted {
        effects := effects + [PermissionRequired];
        return;
      }
      if picked.None? {
        return;
      }
      var contact := picked.value;
      if contact.name != "" {
        form := form.(name := contact.name);
      }
      if contact.firstNumber != "" {
        form := form.(phone := PhonebookPhone(contact.firstNumber));
      }
    }

    /** `handlePickImage`: `picked` is the URI of the chosen photo, None when cancelled. */
    method HandlePickImage(granted: bool, picked: Option<string>)
      requires Valid()
      modifies this
      ensures Valid() && isSaving == old(isSaving) && avatarSeed == old(avatarSeed)
      ensures !granted ==> form == old(form) && effects == old(effects) + [PermissionRequired]
      ensures granted ==> effects == old(effects)
      ensures granted && picked.Some? && picked.value != "" ==> form == old(form).(avatarUri := picked)
      ensures granted && (picked.None? || picked.value == "") ==> form == old(form)
    {
      if !granted {
        effects := effects + [PermissionRequired];
        return;
      }
      if picked.Some? && picked.value != "" {
        form := form.(avatarUri := picked);
      }
    }

    /**
     * The refresh button beside the avatar: the picked photo is dropped and a new seed
     * (`generateAvatarSeed()`, a random draw passed in as `seed`) takes the old one's place,
     * so the fallback avatar changes.
     */
    method RefreshAvatar(seed: string)
      requires Valid()
      modifies this
      ensures Valid() && form == old(form).(avatarUri := None) && avatarSeed == seed
      ensures isSaving == old(isSaving) && effects == old(effects)
      ensures SubmitRequest(parse, form, avatarSeed).avatarUrl == Some(Some(FallbackAvatarUri(seed)))
    {
      form := form.(avatarUri := None);
      avatarSeed := seed;
    }

    /**
     * `handleSubmit`: a no-op while the gate is closed; otherwise the party is created,
     * and on success the form returns to its initial state and the screen goes back.
     * `today` is the `new Date()` the record date is reset to.
     */
    method HandleSubmit(today: string) returns (outcome: Option<Result<CustomerSupplier, DataError>>)
      requires Valid()
      modifies this, api, api.db
      ensures Valid() && avatarSeed == old(avatarSeed)
      ensures SubmitDisabled(old(form).name, old(form).phone, old(isSaving)) ==>
        outcome.None? && unchanged(this) && unchanged(api) && unchanged(api.db)
      ensures !SubmitDisabled(old(form).name, old(form).phone, old(isSaving)) ==> outcome.Some?
      ensures !SubmitDisabled(old(form).name, old(form).phone, old(isSaving)) && Ready(api.auth) && api.db.online ==>
        outcome.Some? && outcome.value.Ok?
      ensures outcome.Some? ==> !isSaving && api.db.stocks == old(api.db.stocks)
      ensures UpsertedOrKept(old(api.db.businesses), api.db.businesses, api.auth)
      ensures outcome.Some? && outcome.value.Ok? ==>
        && form == InitialForm(today)
        && effects == old(effects) + [Saved, WentBack]
        && ValidateCreateParty(api.auth, SubmitRequest(parse, old(form), avatarSeed), old(form).recordDate).Ok?
        && outcome.value.value.data ==
             ValidateCreateParty(api.auth, SubmitRequest(parse, old(form), avatarSeed), old(form).recordDate).value
        && api.db.parties == old(api.db.parties) + [outcome.value.value]
      ensures outcome.Some? && outcome.value.Err? ==>
        && form == old(form)
        && effects == old(effects) + [Failed(outcome.value.error)]
        && api.db.parties == old(api.db.parties)
        && (outcome.value.error == AuthNotReady || outcome.value.error == BusinessNotFound || outcome.value.error.Backend?)
    {
      if SubmitDisabled(form.name, form.phone, isSaving) {
        return None;
      }
      isSaving := true;
      var request := SubmitRequest(parse, form, avatarSeed);
      SubmitGateSound(parse, form, avatarSeed, api.auth, form.recordDate);
      var created := api.CreateCustomerSupplier(request, form.recordDate);
      assert UpsertedOrKept(old(api.db.businesses), api.db.businesses, api.auth);
      FinishSubmit(created, today);
      outcome := Some(created);
    }

    /** The end of `handleSubmit`: on success the form resets and the screen goes back; on failure an alert. */
    method FinishSubmit(created: Result<CustomerSupplier, DataError>, today: string)
      modifies this
      ensures !isSaving && avatarSeed == old(avatarSeed)
      ensures created.Ok? ==> form == InitialForm(today) && effects == old(effects) + [Saved, WentBack]
      ensures created.Err? ==> form == old(form) && effects == old(effects) + [Failed(created.error)]
    {
      if created.Ok? {
        form := InitialForm(today);
        effects := effects + [Saved, WentBack];
      } else {
        effects := effects + [Failed(created.error)];
      }
      isSaving := false;
    }
  }
}

=== FILE: social_auth.dfy ===
/**
 * `handleSocialAuth` of src/app/hooks/useAuthentication.ts: one `loadingStrategy` field
 * that guards against a second flow, is set before the SSO flow starts and is cleared
 * on every way out. The SSO provider, `setActive` and the router are outside the model:
 * what they answered is the `FlowOutcome` parameter, what was asked of them is the
 * `effects` log.
 */
module SocialAuth {
  import opened Wrappers

  datatype Strategy = OAuthGoogle | OAuthApple | OAuthFacebook

  /** The provider name shown in both notices; every strategy other than Google and Apple reads "Facebook". */
  function ProviderLabel(strategy: Strategy): (name: string)
    ensures name == "Google" <==> strategy == OAuthGoogle
    ensures name == "Apple" <==> strategy == OAuthApple
    ensures name == "Facebook" <==> strategy == OAuthFacebook
  {
    match strategy
    case OAuthGoogle => "Google"
    case OAuthApple => "Apple"
    case OAuthFacebook => "Facebook"
  }

  /** The path the SSO flow redirects back to. */
  const RedirectPath := "/sso-callback"
  /** The route a completed sign-in replaces the current one with. */
  const HomeRoute := "/(tabs)"

  /** How `setActive` ended. */
  datatype Activation = Activated | ActivationThrew

  /**
   * What the awaited calls gave back: `startSSOFlow` either threw or returned a session
   * id (None when absent) and possibly a `setActive` function.
   */
  datatype FlowOutcome =
    | FlowThrew
    | FlowReturned(createdSessionId: Option<string>, hasSetActive: bool, activation: Activation)

  /** What the handler asks of the world outside its own state. */
  datatype Effect =
    | StartFlow(strategy: Strategy, redirect: string)
    | IncompleteNotice(provider: string)
    | SetActive(session: string)
    | Navigate(route: string)
    | ErrorNotice(provider: string)

  /** `!createdSessionId || !setActive`: an absent or empty id, or no `setActive`. */
  predicate Incomplete(outcome: FlowOutcome)
    requires outcome.FlowReturned?
  {
    outcome.createdSessionId.None? || outcome.createdSessionId.value == "" || !outcome.hasSetActive
  }

  /** The effects of the part of the handler after the flow was started, as one value. */
  function FinishEffects(strategy: Strategy, outcome: FlowOutcome): seq<Effect> {
    match outcome
    case FlowThrew => [ErrorNotice(ProviderLabel(strategy))]
    case FlowReturned(sid, _, activation) =>
      if Incomplete(outcome) then [IncompleteNotice(ProviderLabel(strategy))]
      else if activation == ActivationThrew then [SetActive(sid.value), ErrorNotice(ProviderLabel(strategy))]
      else [SetActive(sid.value), Navigate(HomeRoute)]
  }

  /** The app navigates exactly when a non-empty session came back with `setActive` and activation succeeded. */
  lemma NavigatesIffActivated(strategy: Strategy, outcome: FlowOutcome)
    ensures Navigate(HomeRoute) in FinishEffects(strategy, outcome) <==>
      outcome.FlowReturned? && !Incomplete(outcome) && outcome.activation == Activated
  {
  }

  /** Only the session the flow created is ever activated, and it is activated before any navigation. */
  lemma ActivatesCreatedSessionFirst(strategy: Strategy, outcome: FlowOutcome, session: string)
    ensures SetActive(session) in FinishEffects(strategy, outcome) ==>
      outcome.FlowReturned? && outcome.createdSessionId == Some(session) && session != ""
      && FinishEffects(strategy, outcome)[0] == SetActive(session)
  {
  }

  /** An incomplete sign-in gives its notice and nothing else: no activation, no navigation. */
  lemma IncompleteOnlyNotifies(strategy: Strategy, outcome: FlowOutcome)
    requires outcome.FlowReturned? && Incomplete(outcome)
    ensures FinishEffects(strategy, outcome) == [IncompleteNotice(ProviderLabel(strategy))]
    ensures forall e :: e in FinishEffects(strategy, outcome) ==> !e.SetActive? && !e.Navigate?
  {
  }

  /** Every failure, thrown or incomplete, names the provider that was asked for and ends the flow without navigating. */
  lemma FailureNamesProvider(strategy: Strategy, outcome: FlowOutcome)
    ensures (exists e :: e in FinishEffects(strategy, outcome) && (e.ErrorNotice? || e.IncompleteNotice?)) <==>
      !(Navigate(HomeRoute) in FinishEffects(strategy, outcome))
    ensures forall e :: e in FinishEffects(strategy, outcome) && e.ErrorNotice? ==> e.provider == ProviderLabel(strategy)
    ensures forall e :: e in FinishEffects(strategy, outcome) && e.IncompleteNotice? ==> e.provider == ProviderLabel(strategy)
  {
    var effects := FinishEffects(strategy, outcome);
    if !(Navigate(HomeRoute) in effects) {
      assert effects[|effects| - 1] in effects;
    }
  }

  /** The hook's state: the strategy whose flow is in progress, and the effects so far. */
  class UseAuthentication {
    var loadingStrategy: Option<Strategy>
    var effects: seq<Effect>

    constructor ()
      ensures loadingStrategy.None? && effects == []
    {
      loadingStrategy := None;
      effects := [];
    }

    /**
     * The synchronous start of `handleSocialAuth`: the guard, then the strategy is
     * recorded and the flow started. `proceed` is false when another flow is in progress.
     */
    method Start(strategy: Strategy) returns (proceed: bool)
      modifies this
      ensures proceed <==> old(loadingStrategy).None?
      ensures !proceed ==> loadingStrategy == old(loadingStrategy) && effects == old(effects)
      ensures proceed ==> loadingStrategy == Some(strategy) && effects == old(effects) + [StartFlow(strategy, RedirectPath)]
    {
      if loadingStrategy.Some? {
        return false;
      }
      loadingStrategy := Some(strategy);
      effects := effects + [StartFlow(strategy, RedirectPath)];
      proceed := true;
    }

    /**
     * The continuation after `startSSOFlow` settles: the incomplete check, activation and
     * navigation, the catch, and the `finally` that clears the strategy on every path.
     */
    method Finish(outcome: FlowOutcome)
      requires loadingStrategy.Some?
      modifies this
      ensures loadingStrategy.None?
      ensures effects == old(effects) + FinishEffects(old(loadingStrategy).value, outcome)
    {
      var provider := ProviderLabel(loadingStrategy.value);
      match outcome {
        case FlowThrew =>
          effects := effects + [ErrorNotice(provider)];
        case FlowReturned(sid, hasSetActive, activation) =>
          if sid.None? || sid.value == "" || !hasSetActive {
            effects := effects + [IncompleteNotice(provider)];
          } else {
            effects := effects + [SetActive(sid.value)];
            if activation == ActivationThrew {
              effects := effects + [ErrorNotice(provider)];
            } else {
              effects := effects + [Navigate(HomeRoute)];
            }
          }
      }
      loadingStrategy := None;
    }

    /** One whole call of `handleSocialAuth` that no other call interleaves with. */
    method HandleSocialAuth(strategy: Strategy, outcome: FlowOutcome)
      modifies this
      ensures old(loadingStrategy).Some? ==> loadingStrategy == old(loadingStrategy) && effects == old(effects)
      ensures old(loadingStrategy).None? ==>
        && loadingStrategy.None?
        && effects == old(effects) + [StartFlow(strategy, RedirectPath)] + FinishEffects(strategy, outcome)
    {
      var proceed := Start(strategy);
      if proceed {
        Finish(outcome);
      }
    }
  }
}

=== FILE: stock_screen.dfy ===
/**
 * The stock screen of src/app/stock.tsx: the create form and its submit gate, the edit
 * modal and its gate, the unit picker shared by both, and the totals card over the
 * loaded list. `Number.parseFloat` and `String(number)` are the screen's `parse` and
 * `show` parameters.
 */
module StockScreen {
  import opened Wrappers
  import opened Text
  import opened SupabaseHook

  /** The units offered by the picker: piece, kilogram, litre, dozen, box, packet. */
  const UnitOptions: seq<string> := ["পিস", "কেজি", "লিটার", "ডজন", "বক্স", "প্যাকেট"]

  /** No offered unit is blank, so a picked unit always passes the hook's unit check. */
  lemma UnitOptionsNotBlank()
    ensures forall u :: u in UnitOptions ==> u != "" && !Blank(u)
  {
    forall u | u in UnitOptions ensures u != "" && !Blank(u) {
      assert !IsWhitespace(u[0]);
    }
  }

  /** `text.trim().length ? Number.parseFloat(text) : 0` */
  function ParseOrZero(parse: string -> Num, text: string): (n: Num)
    ensures Blank(text) ==> n == Finite(0.0)
    ensures !Blank(text) ==> n == parse(text)
  {
    TrimEmptyIffBlank(text);
    if Trim(text) == "" then Finite(0.0) else parse(text)
  }

  /** The create form's inputs. */
  datatype CreateForm = CreateForm(productName: string, costPerUnit: string, openingStock: string, selectedUnit: Option<string>)

  const EmptyCreateForm := CreateForm("", "", "", None)

  /** `!isSubmitDisabled` apart from the saving flag, together with the handler's own `selectedUnit` check. */
  predicate CreateGateOpen(parse: string -> Num, f: CreateForm) {
    && !Blank(f.productName)
    && f.selectedUnit.Some? && f.selectedUnit.value != ""
    && IsPositive(parse(f.costPerUnit))
    && IsNonNegative(ParseOrZero(parse, f.openingStock))
  }

  /** The argument `handleSaveStock` passes to `createStock`. */
  function CreateRequest(parse: string -> Num, f: CreateForm): (input: CreateStockInput)
    requires f.selectedUnit.Some?
    ensures input.name == f.productName && input.unit == f.selectedUnit.value
    ensures input.costPerUnit == parse(f.costPerUnit)
    ensures input.openingStock == Some(ParseOrZero(parse, f.openingStock))
  {
    CreateStockInput(f.productName, f.selectedUnit.value, parse(f.costPerUnit), Some(ParseOrZero(parse, f.openingStock)))
  }

  /**
   * The create gate is at least as strict as the hook: with a picked unit, a form the
   * gate lets through passes every check of `createStock` once auth is ready.
   */
  lemma CreateGateSound(parse: string -> Num, f: CreateForm, auth: Auth)
    requires CreateGateOpen(parse, f) && !Blank(f.selectedUnit.value)
    ensures Ready(auth) ==> ValidateCreateStock(auth, CreateRequest(parse, f)).Ok?
    ensures !Ready(auth) ==> ValidateCreateStock(auth, CreateRequest(parse, f)) == Err(AuthNotReady)
  {
  }

  /** The edit modal's inputs; the total cost is shown and checked but never sent. */
  datatype EditForm = EditForm(
    stockId: Option<string>, name: string, unit: Option<string>,
    costPerUnit: string, openingStock: string, totalCost: string, totalSold: string)

  /** `!isEditSubmitDisabled` apart from the updating flag. */
  predicate EditGateOpen(parse: string -> Num, f: EditForm) {
    && f.stockId.Some? && f.stockId.value != ""
    && !Blank(f.name)
    && f.unit.Some? && f.unit.value != ""
    && IsPositive(parse(f.costPerUnit))
    && IsNonNegative(ParseOrZero(parse, f.openingStock))
    && IsNonNegative(ParseOrZero(parse, f.totalCost))
    && IsNonNegative(ParseOrZero(parse, f.totalSold))
  }

  /** The argument `handleUpdateStock` passes to `updateStock`. */
  function UpdateRequest(parse: string -> Num, f: EditForm): (input: UpdateStockInput)
    requires f.stockId.Some? && f.unit.Some?
    ensures input.id == f.stockId.value && input.name == f.name && input.unit == f.unit.value
    ensures input.costPerUnit == parse(f.costPerUnit)
    ensures input.openingStock == ParseOrZero(parse, f.openingStock)
    ensures input.totalSold == ParseOrZero(parse, f.totalSold)
  {
    UpdateStockInput(f.stockId.value, f.name, f.unit.value, parse(f.costPerUnit),
                     ParseOrZero(parse, f.openingStock), ParseOrZero(parse, f.totalSold))
  }

  /** The total cost typed in the modal never reaches the backend, yet it can close the gate. */
  lemma UpdateIgnoresTotalCost(parse: string -> Num, f: EditForm, typed: string)
    requires f.stockId.Some? && f.unit.Some?
    ensures UpdateRequest(parse, f.(totalCost := typed)) == UpdateRequest(parse, f)
    ensures EditGateOpen(parse, f.(totalCost := typed)) ==> IsNonNegative(ParseOrZero(parse, typed))
  {
  }

  /**
   * The edit gate is at least as strict as the hook when the id and the unit are not
   * whitespace (ids and units come from stored rows).
   */
  lemma EditGateSound(parse: string -> Num, f: EditForm, auth: Auth)
    requires EditGateOpen(parse, f) && !Blank(f.stockId.value) && !Blank(f.unit.value)
    ensures Ready(auth) ==> ValidateUpdateStock(auth, UpdateRequest(parse, f)).Ok?
  {
  }

  /** The modal as `handleOpenEditModal(stock)` fills it; `show` is `String(number)`. */
  function EditFormOf(show: real -> string, stock: Stock): (f: EditForm)
    ensures f.stockId == Some(stock.id) && f.name == stock.data.name && f.unit == Some(stock.data.unit)
    ensures f.costPerUnit == show(stock.data.costPerUnit) && f.openingStock == show(stock.data.openingStock)
    ensures f.totalCost == show(StockTotalCost(stock.data)) && f.totalSold == show(stock.data.totalSold)
  {
    EditForm(Some(stock.id), stock.data.name, Some(stock.data.unit),
             show(stock.data.costPerUnit), show(stock.data.openingStock),
             show(StockTotalCost(stock.data)), show(stock.data.totalSold))
  }

  /** Printing `x` and parsing the text back gives `x` again, and the text is not blank. */
  predicate ShowsExactly(parse: string -> Num, show: real -> string, x: real) {
    parse(show(x)) == Finite(x) && !Blank(show(x))
  }

  /**
   * Opening the modal on a stored row and saving it untouched sends back the row's own
   * values, provided printing each of the three sent numbers and parsing it back gives
   * the number again.
   */
  lemma ReopenedRowRoundTrips(parse: string -> Num, show: real -> string, stock: Stock)
    requires ShowsExactly(parse, show, stock.data.costPerUnit)
    requires ShowsExactly(parse, show, stock.data.openingStock)
    requires ShowsExactly(parse, show, stock.data.totalSold)
    ensures UpdateRequest(parse, EditFormOf(show, stock)) ==
      UpdateStockInput(stock.id, stock.data.name, stock.data.unit, Finite(stock.data.costPerUnit),
                       Finite(stock.data.openingStock), Finite(stock.data.totalSold))
  {
    assert ParseOrZero(parse, show(stock.data.openingStock)) == Finite(stock.data.openingStock);
    assert ParseOrZero(parse, show(stock.data.totalSold)) == Finite(stock.data.totalSold);
  }

  // ---------------------------------------------------------------- totals card

  datatype Totals = Totals(count: nat, totalCost: real, totalSold: real, balance: real)

  function SumTotalCost(rows: seq<Stock>): real {
    if rows == [] then 0.0 else StockTotalCost(rows[0].data) + SumTotalCost(rows[1..])
  }

  function SumTotalSold(rows: seq<Stock>): real {
    if rows == [] then 0.0 else rows[0].data.totalSold + SumTotalSold(rows[1..])
  }

  /** The balance shown on one row of the list: what the card would show for that row alone. */
  function RowBalance(row: Stock): (b: real)
    ensures b == ComputeTotals([row]).balance
  {
    assert SumTotalCost([row]) == StockTotalCost(row.data) + SumTotalCost([]);
    assert SumTotalSold([row]) == row.data.totalSold + SumTotalSold([]);
    StockTotalCost(row.data) - row.data.totalSold
  }

  function SumRowBalances(rows: seq<Stock>): real {
    if rows == [] then 0.0 else RowBalance(rows[0]) + SumRowBalances(rows[1..])
  }

  /** The `totals` memo: count, the two column sums and their difference. */
  function ComputeTotals(rows: seq<Stock>): (t: Totals)
    ensures t.count == |rows|
    ensures t.balance == t.totalCost - t.totalSold
  {
    var cost := SumTotalCost(rows);
    var sold := SumTotalSold(rows);
    Totals(|rows|, cost, sold, cost - sold)
  }

  /** The card's balance is the sum of the balances shown on the rows. */
  lemma {:induction false} TotalsBalanceIsSumOfRows(rows: seq<Stock>)
    ensures ComputeTotals(rows).balance == SumRowBalances(rows)
  {
    if rows != [] {
      TotalsBalanceIsSumOfRows(rows[1..]);
    }
  }

  /** Over rows that keep the stock invariant both sums are non-negative. */
  lemma {:induction false} TotalsNonNegative(rows: seq<Stock>)
    requires forall r :: r in rows ==> StockInvariant(r.data)
    ensures ComputeTotals(rows).totalCost >= 0.0 && ComputeTotals(rows).totalSold >= 0.0
  {
    if rows != [] {
      assert rows[0] in rows;
      TotalsNonNegative(rows[1..]);
    }
  }

  // ---------------------------------------------------------------- the screen

  datatype PickerTarget = CreateTarget | EditTarget

  /** What the screen shows the user besides its own fields. */
  datatype Notice = StockSaved | StockUpdated | Failed(error: DataError)

  class StockScreen {
    const api: UseSupabase
    const parse: string -> Num
    const show: real -> string

    /** productName, costPerUnit, openingStock and selectedUnit */
    var form: CreateForm
    var unitPickerTarget: Option<PickerTarget>
    var isSaving: bool
    var isRefreshing: bool
    var stocks: seq<Stock>

    var isEditModalOpen: bool
    var isUpdating: bool
    /** editingStockId, editName, editUnit, editCostPerUnit, editOpeningStock, editTotalCost, editTotalSold */
    var edit: EditForm

    var notices: seq<Notice>

    ghost predicate Valid()
      reads this, api, api.db
    {
      && api.Valid()
      && (form.selectedUnit.None? || !Blank(form.selectedUnit.value))
    }

    constructor (api: UseSupabase, parse: string -> Num, show: real -> string)
      requires api.Valid()
      ensures Valid() && this.api == api && this.parse == parse && this.show == show
      ensures form == EmptyCreateForm && edit == EditForm(None, "", None, "", "", "", "")
      ensures stocks == [] && notices == [] && unitPickerTarget.None?
      ensures !isSaving && !isRefreshing && !isEditModalOpen && !isUpdating
    {
      this.api, this.parse, this.show := api, parse, show;
      form := EmptyCreateForm;
      unitPickerTarget := None;
      isSaving, isRefreshing, stocks := false, false, [];
      isEditModalOpen, isUpdating := false, false;
      edit := EditForm(None, "", None, "", "", "", "");
      notices := [];
    }

    /** `loadStocks`: replace the list with what `getStocks` returns (it never throws). */
    method LoadStocks()
      requires Valid()
      modifies this, api
      ensures Valid() && !isRefreshing
      ensures form == old(form) && edit == old(edit) && notices == old(notices)
      ensures unitPickerTarget == old(unitPickerTarget) && isSaving == old(isSaving)
      ensures isEditModalOpen == old(isEditModalOpen) && isUpdating == old(isUpdating)
      ensures !Ready(api.auth) ==> stocks == []
      ensures stocks != [] ==>
        Ready(api.auth) && exists b :: (LatestBusiness(api.db.businesses, api.auth.userId.value) == Some(b)
          && stocks == NewestFirst(ActiveFor(api.db.stocks, api.auth.userId.value, b.id)))
      ensures Ready(api.auth) && api.db.online ==>
        var latest := LatestBusiness(api.db.businesses, api.auth.userId.value);
        && (latest.Some? && latest.value.id != "" ==>
              stocks == NewestFirst(ActiveFor(api.db.stocks, api.auth.userId.value, latest.value.id)))
        && (latest.None? || latest.value.id == "" ==> stocks == [])
    {
      isRefreshing := true;
      var data := api.GetStocks();
      stocks := data;
      isRefreshing := false;
    }

    /**
     * `handleSaveStock`: nothing happens unless the gate is open; otherwise the stock is
     * created, and on success the form is cleared and the list reloaded.
     */
    method HandleSaveStock() returns (outcome: Option<Result<Stock, DataError>>)
      requires Valid()
      modifies this, api, api.db
      ensures Valid()
      ensures !CreateGateOpen(parse, old(form)) || old(isSaving) ==>
        outcome.None? && unchanged(this) && unchanged(api) && unchanged(api.db)
      ensures CreateGateOpen(parse, old(form)) && !old(isSaving) ==> outcome.Some?
      ensures CreateGateOpen(parse, old(form)) && !old(isSaving) && Ready(api.auth) && api.db.online ==>
        outcome.Some? && outcome.value.Ok?
      ensures outcome.Some? ==> !isSaving && edit == old(edit) && api.db.parties == old(api.db.parties)
      ensures UpsertedOrKept(old(api.db.businesses), api.db.businesses, api.auth)
      ensures outcome.Some? ==>
        isEditModalOpen == old(isEditModalOpen) && isUpdating == old(isUpdating) && unitPickerTarget == old(unitPickerTarget)
      ensures outcome.Some? && outcome.value.Ok? ==>
        && form == EmptyCreateForm && !isRefreshing
        && notices == old(notices) + [StockSaved]
        && ValidateCreateStock(api.auth, CreateRequest(parse, old(form))).Ok?
        && outcome.value.value.data == ValidateCreateStock(api.auth, CreateRequest(parse, old(form))).value
        && api.db.stocks == old(api.db.stocks) + [outcome.value.value]
      ensures outcome.Some? && outcome.value.Err? ==>
        && form == old(form)
        && notices == old(notices) + [Failed(outcome.value.error)]
        && api.db.stocks == old(api.db.stocks)
        && stocks == old(stocks) && isRefreshing == old(isRefreshing)
        && (outcome.value.error == AuthNotReady || outcome.value.error == BusinessNotFound || outcome.value.error.Backend?)
    {
      if !CreateGateOpen(parse, form) || isSaving {
        return None;
      }
      var created := SendCreate();
      if created.Ok? {
        ShowSaved();
      } else {
        notices := notices + [Failed(created.error)];
      }
      isSaving := false;
      outcome := Some(created);
    }

    /** `setIsSaving(true)` and the `createStock` call, seen from the hook's side. */
    method SendCreate() returns (created: Result<Stock, DataError>)
      requires Valid() && CreateGateOpen(parse, form)
      modifies this`isSaving, api, api.db
      ensures api.Valid() && isSaving
      ensures api.db.parties == old(api.db.parties)
      ensures UpsertedOrKept(old(api.db.businesses), api.db.businesses, api.auth)
      ensures Ready(api.auth) && api.db.online ==> created.Ok?
      ensures created.Ok? ==>
        && ValidateCreateStock(api.auth, CreateRequest(parse, form)).Ok?
        && created.value.data == ValidateCreateStock(api.auth, CreateRequest(parse, form)).value
        && api.db.stocks == old(api.db.stocks) + [created.value]
      ensures created.Err? ==>
        && api.db.stocks == old(api.db.stocks)
        && (created.error == AuthNotReady || created.error == BusinessNotFound || created.error.Backend?)
    {
      isSaving := true;
      var request := CreateRequest(parse, form);
      CreateGateSound(parse, form, api.auth);
      created := api.CreateStock(request);
      assert UpsertedOrKept(old(api.db.businesses), api.db.businesses, api.auth);
    }

    /** What a successful save does on screen: the notice, the cleared form, the reload. */
    method ShowSaved()
      requires Valid()
      modifies this, api
      ensures Valid() && form == EmptyCreateForm && !isRefreshing
      ensures notices == old(notices) + [StockSaved] && edit == old(edit) && isSaving == old(isSaving)
      ensures isEditModalOpen == old(isEditModalOpen) && isUpdating == old(isUpdating)
      ensures unitPickerTarget == old(unitPickerTarget)
    {
      notices := notices + [StockSaved];
      form := EmptyCreateForm;
      LoadStocks();
    }

    /** `handleOpenEditModal(stock)` */
    method OpenEditModal(stock: Stock)
      requires Valid()
      modifies this
      ensures Valid() && isEditModalOpen && edit == EditFormOf(show, stock)
      ensures form == old(form) && stocks == old(stocks) && notices == old(notices)
      ensures isUpdating == old(isUpdating) && isSaving == old(isSaving)
      ensures unitPickerTarget == old(unitPickerTarget) && isRefreshing == old(isRefreshing)
    {
      edit := EditForm(Some(stock.id), stock.data.name, Some(stock.data.unit),
                       show(stock.data.costPerUnit), show(stock.data.openingStock),
                       show(StockTotalCost(stock.data)), show(stock.data.totalSold));
      isEditModalOpen := true;
    }

    /** `handleCloseEditModal`: the modal closes and forgets which stock it was editing. */
    method CloseEditModal()
      requires Valid()
      modifies this
      ensures Valid() && !isEditModalOpen
      ensures edit == old(edit).(stockId := None)
      ensures form == old(form) && stocks == old(stocks) && notices == old(notices)
      ensures isUpdating == old(isUpdating) && isSaving == old(isSaving)
      ensures unitPickerTarget == old(unitPickerTarget) && isRefreshing == old(isRefreshing)
    {
      isEditModalOpen := false;
      edit := edit.(stockId := None);
    }

    /**
     * `handleUpdateStock`: nothing happens unless the edit gate is open; on success the
     * modal closes and the list is reloaded.
     */
    method HandleUpdateStock() returns (outcome: Option<Result<Stock, DataError>>)
      requires Valid()
      modifies this, api, api.db
      ensures Valid()
      ensures !EditGateOpen(parse, old(edit)) || old(isUpdating) ==>
        outcome.None? && unchanged(this) && unchanged(api) && unchanged(api.db)
      ensures EditGateOpen(parse, old(edit)) && !old(isUpdating) ==> outcome.Some?
      ensures EditGateOpen(parse, old(edit)) && !old(isUpdating) && Ready(api.auth) && api.db.online
              && !Blank(old(edit).stockId.value) && !Blank(old(edit).unit.value) ==>
        var latest := LatestBusiness(api.db.businesses, api.auth.userId.value);
        && outcome.Some? && latest.Some?
        && (CountInScope(old(api.db.stocks), old(edit).stockId.value, api.auth.userId.value, latest.value.id) == 1 ==>
              outcome.value.Ok?)
      ensures outcome.Some? ==> !isUpdating && form == old(form) && api.db.parties == old(api.db.parties)
      ensures UpsertedOrKept(old(api.db.businesses), api.db.businesses, api.auth)
      ensures outcome.Some? ==> isSaving == old(isSaving) && unitPickerTarget == old(unitPickerTarget)
      ensures outcome.Some? && ValidateUpdateStock(api.auth, UpdateRequest(parse, old(edit))).Err? ==>
        outcome.value == Err(ValidateUpdateStock(api.auth, UpdateRequest(parse, old(edit))).error)
      ensures outcome.Some? && outcome.value.Ok? ==>
        && !isEditModalOpen && edit == old(edit).(stockId := None)
        && notices == old(notices) + [StockUpdated]
        && old(edit).stockId.Some? && old(edit).unit.Some? && Ready(api.auth) && !isRefreshing
        && InScope(outcome.value.value, old(edit).stockId.value, api.auth.userId.value, outcome.value.value.businessId)
        && LatestBusiness(api.db.businesses, api.auth.userId.value).Some?
        && LatestBusiness(api.db.businesses, api.auth.userId.value).value.id == outcome.value.value.businessId
        && CountInScope(old(api.db.stocks), old(edit).stockId.value, api.auth.userId.value,
                        outcome.value.value.businessId) == 1
        && var data := ValidateUpdateStock(api.auth, UpdateRequest(parse, old(edit))).value;
           && outcome.value.value.data == data
           && api.db.stocks == UpdateInScope(old(api.db.stocks), old(edit).stockId.value, api.auth.userId.value,
                                             outcome.value.value.businessId, Overwrite(data))
      ensures outcome.Some? && outcome.value.Err? ==>
        && edit == old(edit) && isEditModalOpen == old(isEditModalOpen)
        && notices == old(notices) + [Failed(outcome.value.error)]
        && api.db.stocks == old(api.db.stocks)
        && stocks == old(stocks) && isRefreshing == old(isRefreshing)
    {
      if !EditGateOpen(parse, edit) || isUpdating {
        return None;
      }
      var updated := SubmitEdit();
      outcome := Some(updated);
    }

    /** `handleUpdateStock` past its gate: the hook call, then the report and the reload. */
    method SubmitEdit() returns (updated: Result<Stock, DataError>)
      requires Valid() && EditGateOpen(parse, edit) && !isUpdating
      modifies this, api, api.db
      ensures Valid()
      ensures Ready(api.auth) && api.db.online
              && !Blank(old(edit).stockId.value) && !Blank(old(edit).unit.value) ==>
        var latest := LatestBusiness(api.db.businesses, api.auth.userId.value);
        && latest.Some?
        && (CountInScope(old(api.db.stocks), old(edit).stockId.value, api.auth.userId.value, latest.value.id) == 1 ==>
              updated.Ok?)
      ensures !isUpdating && form == old(form) && api.db.parties == old(api.db.parties)
      ensures UpsertedOrKept(old(api.db.businesses), api.db.businesses, api.auth)
      ensures isSaving == old(isSaving) && unitPickerTarget == old(unitPickerTarget)
      ensures ValidateUpdateStock(api.auth, UpdateRequest(parse, old(edit))).Err? ==>
        updated == Err(ValidateUpdateStock(api.auth, UpdateRequest(parse, old(edit))).error)
      ensures updated.Ok? ==>
        && !isEditModalOpen && edit == old(edit).(stockId := None)
        && notices == old(notices) + [StockUpdated]
        && old(edit).stockId.Some? && old(edit).unit.Some? && Ready(api.auth) && !isRefreshing
        && InScope(updated.value, old(edit).stockId.value, api.auth.userId.value, updated.value.businessId)
        && LatestBusiness(api.db.businesses, api.auth.userId.value).Some?
        && LatestBusiness(api.db.businesses, api.auth.userId.value).value.id == updated.value.businessId
        && CountInScope(old(api.db.stocks), old(edit).stockId.value, api.auth.userId.value,
                        updated.value.businessId) == 1
        && var data := ValidateUpdateStock(api.auth, UpdateRequest(parse, old(edit))).value;
           && updated.value.data == data
           && api.db.stocks == UpdateInScope(old(api.db.stocks), old(edit).stockId.value, api.auth.userId.value,
                                             updated.value.businessId, Overwrite(data))
      ensures updated.Err? ==>
        && edit == old(edit) && isEditModalOpen == old(isEditModalOpen)
        && notices == old(notices) + [Failed(updated.error)]
        && api.db.stocks == old(api.db.stocks)
        && stocks == old(stocks) && isRefreshing == old(isRefreshing)
    {
      updated := SendEdit();
      ReportUpdate(updated);
    }

    /** `setIsUpdating(true)` and the `updateStock` call, seen from the hook's side. */
    method SendEdit() returns (updated: Result<Stock, DataError>)
      requires Valid() && EditGateOpen(parse, edit)
      modifies this`isUpdating, api, api.db
      ensures api.Valid() && isUpdating
      ensures api.db.parties == old(api.db.parties)
      ensures UpsertedOrKept(old(api.db.businesses), api.db.businesses, api.auth)
      ensures Ready(api.auth) && api.db.online && !Blank(edit.stockId.value) && !Blank(edit.unit.value) ==>
        var latest := LatestBusiness(api.db.businesses, api.auth.userId.value);
        && latest.Some?
        && (CountInScope(old(api.db.stocks), edit.stockId.value, api.auth.userId.value, latest.value.id) == 1 ==>
              updated.Ok?)
      ensures ValidateUpdateStock(api.auth, UpdateRequest(parse, edit)).Err? ==>
        updated == Err(ValidateUpdateStock(api.auth, UpdateRequest(parse, edit)).error)
      ensures updated.Ok? ==>
        && Ready(api.auth)
        && InScope(updated.value, edit.stockId.value, api.auth.userId.value, updated.value.businessId)
        && LatestBusiness(api.db.businesses, api.auth.userId.value).Some?
        && LatestBusiness(api.db.businesses, api.auth.userId.value).value.id == updated.value.businessId
        && CountInScope(old(api.db.stocks), edit.stockId.value, api.auth.userId.value,
                        updated.value.businessId) == 1
        && var data := ValidateUpdateStock(api.auth, UpdateRequest(parse, edit)).value;
           && updated.value.data == data
           && api.db.stocks == UpdateInScope(old(api.db.stocks), edit.stockId.value, api.auth.userId.value,
                                             updated.value.businessId, Overwrite(data))
      ensures updated.Err? ==> api.db.stocks == old(api.db.stocks)
    {
      isUpdating := true;
      if !Blank(edit.stockId.value) && !Blank(edit.unit.value) {
        EditGateSound(parse, edit, api.auth);
      }
      updated := api.UpdateStock(UpdateRequest(parse, edit));
      assert UpsertedOrKept(old(api.db.businesses), api.db.businesses, api.auth);
    }

    /**
     * The end of `handleUpdateStock`: on success the notice, the modal closing and the
     * reload; on failure the alert; in both cases the update flag is cleared.
     */
    method ReportUpdate(updated: Result<Stock, DataError>)
      requires Valid()
      modifies this, api
      ensures Valid() && !isUpdating
      ensures form == old(form) && isSaving == old(isSaving) && unitPickerTarget == old(unitPickerTarget)
      ensures updated.Ok? ==>
        && !isEditModalOpen && !isRefreshing
        && edit == old(edit).(stockId := None) && notices == old(notices) + [StockUpdated]
      ensures updated.Err? ==>
        && edit == old(edit) && isEditModalOpen == old(isEditModalOpen)
        && notices == old(notices) + [Failed(updated.error)]
        && stocks == old(stocks) && isRefreshing == old(isRefreshing)
    {
      if updated.Ok? {
        notices := notices + [StockUpdated];
        CloseEditModal();
        LoadStocks();
      } else {
        notices := notices + [Failed(updated.error)];
      }
      isUpdating := false;
    }

    /** Tapping a unit field opens the picker for that form. */
    method OpenUnitPicker(target: PickerTarget)
      requires Valid()
      modifies this
      ensures Valid() && unitPickerTarget == Some(target)
      ensures form == old(form) && edit == old(edit) && stocks == old(stocks) && notices == old(notices)
      ensures isSaving == old(isSaving) && isUpdating == old(isUpdating)
      ensures isEditModalOpen == old(isEditModalOpen) && isRefreshing == old(isRefreshing)
    {
      unitPickerTarget := Some(target);
    }

    /** Choosing a unit sets the edit unit when the picker was opened from the modal, else the create unit. */
    method PickUnit(unit: string)
      requires Valid() && unit in UnitOptions
      modifies this
      ensures Valid() && unitPickerTarget.None?
      ensures old(unitPickerTarget) == Some(EditTarget) ==>
        edit == old(edit).(unit := Some(unit)) && form == old(form)
      ensures old(unitPickerTarget) != Some(EditTarget) ==>
        form == old(form).(selectedUnit := Some(unit)) && edit == old(edit)
      ensures stocks == old(stocks) && notices == old(notices)
      ensures isSaving == old(isSaving) && isUpdating == old(isUpdating)
      ensures isEditModalOpen == old(isEditModalOpen) && isRefreshing == old(isRefreshing)
    {
      UnitOptionsNotBlank();
      if unitPickerTarget == Some(EditTarget) {
        edit := edit.(unit := Some(unit));
      } else {
        form := form.(selectedUnit := Some(unit));
      }
      unitPickerTarget := None;
    }

    /** Dismissing the picker changes no form. */
    method ClosePicker()
      requires Valid()
      modifies this
      ensures Valid() && unitPickerTarget.None?
      ensures form == old(form) && edit == old(edit) && stocks == old(stocks) && notices == old(notices)
      ensures isSaving == old(isSaving) && isUpdating == old(isUpdating)
      ensures isEditModalOpen == old(isEditModalOpen) && isRefreshing == old(isRefreshing)
    {
      unitPickerTarget := None;
    }
  }
}

=== FILE: supabase_client.dfy ===
/**
 * The session-token storage adapter and the client factory of src/lib/supabase.ts.
 *
 * The native secure store keeps small string values under string keys. The adapter
 * stores one logical value under the physical key "sb-auth-" + key; a value longer
 * than ChunkSize characters is split into "<storageKey>:chunk:<i>" entries with a
 * "<storageKey>:chunk-count" marker that holds the number of chunks.
 */
module SupabaseClient {
  import opened Wrappers
  import opened Text

  const StorageKeyPrefix: string := "sb-auth-"
  const ChunkSize: nat := 1800
  const CountSuffix: string := ":chunk-count"
  const ChunkInfix: string := ":chunk:"

  // ---------------------------------------------------------------- key naming

  function StorageKey(key: string): string { StorageKeyPrefix + key }

  function CountKey(storageKey: string): string { storageKey + CountSuffix }

  function ChunkKey(storageKey: string, i: nat): string { storageKey + ChunkInfix + NatToString(i) }

  /** The keys the adapter may ever touch on behalf of one storage key. */
  ghost predicate OwnKey(sk: string, k: string) {
    k == sk || k == CountKey(sk) || exists i: nat :: k == ChunkKey(sk, i)
  }

  /** `m'` agrees with `m` on every key outside the namespace of `sk`. */
  ghost predicate SameOutside(m: map<string, string>, m': map<string, string>, sk: string) {
    forall k :: !OwnKey(sk, k) ==> (k in m <==> k in m') && (k in m ==> m[k] == m'[k])
  }

  /** Chunk keys, the count marker and the direct key of one storage key never collide. */
  lemma ChunkKeysDistinct(sk: string, i: nat, j: nat)
    ensures ChunkKey(sk, i) == ChunkKey(sk, j) ==> i == j
    ensures ChunkKey(sk, i) != CountKey(sk)
    ensures ChunkKey(sk, i) != sk && CountKey(sk) != sk
  {
    var a, b := ChunkKey(sk, i), ChunkKey(sk, j);
    if a == b {
      assert a[|sk| + 7..] == NatToString(i);
      assert b[|sk| + 7..] == NatToString(j);
      NatToStringInjective(i, j);
    }
    assert a[|sk| + 6] == ':';
    assert CountKey(sk)[|sk| + 6] == '-';
  }

  // ---------------------------------------------------------------- chunking

  function Concat(parts: seq<string>): string {
    if parts == [] then "" else parts[0] + Concat(parts[1..])
  }

  function Min(a: int, b: int): int { if a <= b then a else b }

  /** The slices `value.slice(i, i + ChunkSize)` for i = 0, ChunkSize, 2 * ChunkSize, ... while i < |value|. */
  function Chunks(value: string): seq<string>
    decreases |value|
  {
    if value == [] then []
    else
      var k := Min(ChunkSize, |value|);
      [value[..k]] + Chunks(value[k..])
  }

  /**
   * The chunks are ceil(|value| / ChunkSize) non-empty parts of at most ChunkSize
   * characters that concatenate back to the value.
   */
  lemma {:induction false} ChunksSpec(value: string)
    ensures |Chunks(value)| == (|value| + ChunkSize - 1) / ChunkSize
    ensures forall i :: 0 <= i < |Chunks(value)| ==> 0 < |Chunks(value)[i]| <= ChunkSize
    ensures Concat(Chunks(value)) == value
    decreases |value|
  {
    if value != [] {
      var k := Min(ChunkSize, |value|);
      ChunksSpec(value[k..]);
      var parts := Chunks(value);
      assert parts[1..] == Chunks(value[k..]);
      assert value == value[..k] + value[k..];
    }
  }

  // ---------------------------------------------------------------- the store as a map

  /** `Number.parseInt(raw, 10)` when it is a finite positive integer, otherwise 0. */
  function ParsedCount(raw: string): nat {
    match ParseInt(raw)
    case Some(n) => if n > 0 then n else 0
    case None => 0
  }

  /** Chunks 0 .. n-1 in index order, or None as soon as one of them is missing. */
  function Gather(m: map<string, string>, sk: string, n: nat): (r: Option<seq<string>>)
    ensures r.Some? ==> |r.value| == n
  {
    if n == 0 then Some([])
    else match Gather(m, sk, n - 1)
      case None => None
      case Some(parts) =>
        if ChunkKey(sk, n - 1) in m then Some(parts + [m[ChunkKey(sk, n - 1)]]) else None
  }

  /** All chunks present gives all of them in order; one missing chunk gives nothing. */
  lemma {:induction false} GatherAllOrNothing(m: map<string, string>, sk: string, n: nat)
    ensures Gather(m, sk, n).Some? <==> forall i: nat :: i < n ==> ChunkKey(sk, i) in m
    ensures Gather(m, sk, n).Some? ==>
      forall i: nat :: i < n ==> Gather(m, sk, n).value[i] == m[ChunkKey(sk, i)]
  {
    if n > 0 {
      GatherAllOrNothing(m, sk, n - 1);
      var last := ChunkKey(sk, n - 1);
      match Gather(m, sk, n - 1)
      case None =>
      case Some(parts) =>
        if last in m {
          var all := parts + [m[last]];
          assert Gather(m, sk, n) == Some(all);
          forall i: nat | i < n ensures ChunkKey(sk, i) in m && all[i] == m[ChunkKey(sk, i)] {
            if i < n - 1 {
              assert all[i] == parts[i];
            }
          }
        } else {
          assert Gather(m, sk, n).None?;
        }
    }
  }

  /** What `readNativeValue(sk)` returns when every native call succeeds. */
  function Stored(m: map<string, string>, sk: string): Option<string> {
    var ck := CountKey(sk);
    if ck !in m || m[ck] == "" then
      if sk in m then Some(m[sk]) else None
    else
      var n := ParsedCount(m[ck]);
      if n == 0 then None
      else match Gather(m, sk, n)
        case None => None
        case Some(parts) => Some(Concat(parts))
  }

  function ChunkKeysBelow(sk: string, n: nat): set<string> {
    set i: nat | i < n :: ChunkKey(sk, i)
  }

  /** The keys `clearNativeValue(sk)` deletes. */
  function ClearedKeys(m: map<string, string>, sk: string): (ks: set<string>)
    ensures forall k :: k in ks ==> OwnKey(sk, k)
  {
    var ck := CountKey(sk);
    {sk} + (if ck in m && m[ck] != "" then {ck} + ChunkKeysBelow(sk, ParsedCount(m[ck])) else {})
  }

  /** The store after `clearNativeValue(sk)`: only keys of `sk` disappear, nothing else changes. */
  function Cleared(m: map<string, string>, sk: string): (m': map<string, string>)
    ensures SameOutside(m, m', sk)
    ensures m'.Keys <= m.Keys && forall k :: k in m' ==> m'[k] == m[k]
    ensures sk !in m'
  {
    m - ClearedKeys(m, sk)
  }

  /** `m` with chunk i of `parts` stored under ChunkKey(sk, i) for every i < n. */
  function PutChunks(m: map<string, string>, sk: string, parts: seq<string>, n: nat): map<string, string>
    requires n <= |parts|
  {
    if n == 0 then m else PutChunks(m, sk, parts, n - 1)[ChunkKey(sk, n - 1) := parts[n - 1]]
  }

  lemma {:induction false} PutChunksAt(m: map<string, string>, sk: string, parts: seq<string>, n: nat, i: nat)
    requires i < n <= |parts|
    ensures ChunkKey(sk, i) in PutChunks(m, sk, parts, n)
    ensures PutChunks(m, sk, parts, n)[ChunkKey(sk, i)] == parts[i]
  {
    if i < n - 1 {
      PutChunksAt(m, sk, parts, n - 1, i);
      ChunkKeysDistinct(sk, i, n - 1);
    }
  }

  lemma {:induction false} PutChunksElsewhere(m: map<string, string>, sk: string, parts: seq<string>, n: nat, k: string)
    requires n <= |parts|
    requires forall i: nat :: i < n ==> ChunkKey(sk, i) != k
    ensures k in PutChunks(m, sk, parts, n) <==> k in m
    ensures k in m ==> PutChunks(m, sk, parts, n)[k] == m[k]
  {
    if n > 0 {
      PutChunksElsewhere(m, sk, parts, n - 1, k);
    }
  }

  /** The store after `writeNativeValue(sk, value)` when every native call succeeds. */
  function Written(m: map<string, string>, sk: string, value: string): map<string, string> {
    var c := Cleared(m, sk);
    if |value| <= ChunkSize then c[sk := value]
    else
      var parts := Chunks(value);
      PutChunks(c, sk, parts, |parts|)[CountKey(sk) := NatToString(|parts|)]
  }

  /** Writing touches no key outside the namespace of `sk`. */
  lemma WrittenSameOutside(m: map<string, string>, sk: string, value: string)
    ensures SameOutside(m, Written(m, sk, value), sk)
  {
    var c := Cleared(m, sk);
    if |value| > ChunkSize {
      var parts := Chunks(value);
      forall k | !OwnKey(sk, k)
        ensures (k in PutChunks(c, sk, parts, |parts|) <==> k in c)
        ensures k in c ==> PutChunks(c, sk, parts, |parts|)[k] == c[k]
      {
        PutChunksElsewhere(c, sk, parts, |parts|, k);
      }
    }
  }

  // ---------------------------------------------------------------- properties

  /** Write-then-read round trip: reading after a successful write gives the value back. */
  lemma WriteThenRead(m: map<string, string>, sk: string, value: string)
    ensures Stored(Written(m, sk, value), sk) == Some(value)
  {
    var w, ck := Written(m, sk, value), CountKey(sk);
    ChunkKeysDistinct(sk, 0, 0);
    if |value| <= ChunkSize {
      // A non-empty marker was cleared; an empty one is left and read as "no chunks".
      assert ck in w ==> ck in m && m[ck] == "" && w[ck] == "";
      assert w[sk] == value;
    } else {
      var n := (|value| + ChunkSize - 1) / ChunkSize;
      LongWriteLayout(m, sk, value);
      ParseIntOfNatToString(n);
      assert ParsedCount(w[ck]) == n;
    }
  }

  /** The count marker and chunk keys of `sk` are present only as a consistent set. */
  ghost predicate Tidy(m: map<string, string>, sk: string) {
    && (CountKey(sk) in m ==> m[CountKey(sk)] != "")
    && forall i: nat :: ChunkKey(sk, i) in m ==> CountKey(sk) in m && i < ParsedCount(m[CountKey(sk)])
  }

  /** On a tidy store, clearing removes every entry of the key, and nothing else. */
  lemma ClearRemovesOwnEntries(m: map<string, string>, sk: string)
    requires Tidy(m, sk)
    ensures forall k :: OwnKey(sk, k) ==> k !in Cleared(m, sk)
  {
    var ck := CountKey(sk);
    forall k | OwnKey(sk, k) ensures k !in Cleared(m, sk) {
      if k != sk && k != ck {
        var i: nat :| k == ChunkKey(sk, i);
        if k in m {
          assert k in ChunkKeysBelow(sk, ParsedCount(m[ck]));
        }
      }
    }
  }

  /** A value of at most ChunkSize characters is stored directly, with no chunk or count entry. */
  lemma ShortWriteHasNoChunks(m: map<string, string>, sk: string, value: string)
    requires Tidy(m, sk) && |value| <= ChunkSize
    ensures Written(m, sk, value) == Cleared(m, sk)[sk := value]
    ensures CountKey(sk) !in Written(m, sk, value)
    ensures forall i: nat :: ChunkKey(sk, i) !in Written(m, sk, value)
  {
    ClearRemovesOwnEntries(m, sk);
    ChunkKeysDistinct(sk, 0, 0);
    forall i: nat ensures ChunkKey(sk, i) !in Written(m, sk, value) {
      ChunkKeysDistinct(sk, i, i);
      assert OwnKey(sk, ChunkKey(sk, i));
    }
  }

  /** A longer value becomes ceil(len / ChunkSize) chunks of at most ChunkSize characters plus a count marker. */
  lemma LongWriteLayout(m: map<string, string>, sk: string, value: string)
    requires |value| > ChunkSize
    ensures var w, n := Written(m, sk, value), (|value| + ChunkSize - 1) / ChunkSize;
      && sk !in w
      && CountKey(sk) in w && w[CountKey(sk)] == NatToString(n)
      && (forall i: nat :: i < n ==> ChunkKey(sk, i) in w && 0 < |w[ChunkKey(sk, i)]| <= ChunkSize)
      && Gather(w, sk, n).Some? && Concat(Gather(w, sk, n).value) == value
  {
    var c := Cleared(m, sk);
    var parts := Chunks(value);
    var n := |parts|;
    var w := Written(m, sk, value);
    ChunksSpec(value);
    ChunkKeysDistinct(sk, 0, 0);
    forall i: nat | i < n ensures ChunkKey(sk, i) in w && w[ChunkKey(sk, i)] == parts[i] {
      PutChunksAt(c, sk, parts, n, i);
      ChunkKeysDistinct(sk, i, i);
    }
    forall i: nat | i < n ensures ChunkKey(sk, i) != sk {
      ChunkKeysDistinct(sk, i, i);
    }
    PutChunksElsewhere(c, sk, parts, n, sk);
    GatherAllOrNothing(w, sk, n);
    assert Gather(w, sk, n).value == parts;
  }

  /** Writing keeps the namespace of `sk` tidy. */
  lemma WriteKeepsTidy(m: map<string, string>, sk: string, value: string)
    requires Tidy(m, sk)
    ensures Tidy(Written(m, sk, value), sk)
  {
    var ck := CountKey(sk);
    var c := Cleared(m, sk);
    ClearRemovesOwnEntries(m, sk);
    ChunkKeysDistinct(sk, 0, 0);
    assert OwnKey(sk, ck);
    if |value| <= ChunkSize {
      ShortWriteHasNoChunks(m, sk, value);
    } else {
      var parts := Chunks(value);
      var n := |parts|;
      var w := Written(m, sk, value);
      ParseIntOfNatToString(n);
      forall i: nat | ChunkKey(sk, i) in w ensures i < ParsedCount(w[ck]) {
        assert OwnKey(sk, ChunkKey(sk, i));
        if i >= n {
          forall j: nat | j < n ensures ChunkKey(sk, j) != ChunkKey(sk, i) {
            ChunkKeysDistinct(sk, i, j);
          }
          PutChunksElsewhere(c, sk, parts, n, ChunkKey(sk, i));
          ChunkKeysDistinct(sk, i, i);
        }
      }
    }
  }

  /** Clearing after a chunked write removes the direct key, the count marker and every chunk written. */
  lemma ClearAfterLongWrite(m: map<string, string>, sk: string, value: string)
    requires |value| > ChunkSize
    ensures var c, n := Cleared(Written(m, sk, value), sk), (|value| + ChunkSize - 1) / ChunkSize;
      && sk !in c && CountKey(sk) !in c
      && forall i: nat :: i < n ==> ChunkKey(sk, i) !in c
  {
    var n := |Chunks(value)|;
    var w := Written(m, sk, value);
    ChunksSpec(value);
    ParseIntOfNatToString(n);
    LongWriteLayout(m, sk, value);
    assert ParsedCount(w[CountKey(sk)]) == n;
    forall i: nat | i < n ensures ChunkKey(sk, i) in ClearedKeys(w, sk) {
      assert ChunkKey(sk, i) in ChunkKeysBelow(sk, n);
    }
  }

  // ---------------------------------------------------------------- the native store

  /** The native module threw (keychain unavailable, value rejected, ...). */
  datatype NativeError = NativeError

  function Lookup(m: map<string, string>, k: string): Option<string> {
    if k in m then Some(m[k]) else None
  }

  /**
   * The native secure key-value store. While it is accessible no call throws; otherwise
   * any call may throw, and a call that returns normally did exactly its job.
   */
  class SecureStore {
    var entries: map<string, string>
    const accessible: bool

    constructor (accessible: bool)
      ensures entries == map[] && this.accessible == accessible
    {
      entries := map[];
      this.accessible := accessible;
    }

    method GetItemAsync(key: string) returns (r: Result<Option<string>, NativeError>)
      ensures accessible ==> r.Ok?
      ensures r.Ok? ==> r.value == Lookup(entries, key)
    {
      if !accessible { return Err(NativeError); }
      r := Ok(Lookup(entries, key));
    }

    method SetItemAsync(key: string, value: string) returns (r: Result<(), NativeError>)
      modifies this`entries
      ensures accessible ==> r.Ok?
      ensures r.Ok? ==> entries == old(entries)[key := value]
      ensures r.Err? ==> entries == old(entries)
    {
      if !accessible { return Err(NativeError); }
      entries := entries[key := value];
      r := Ok(());
    }

    method DeleteItemAsync(key: string) returns (r: Result<(), NativeError>)
      modifies this`entries
      ensures accessible ==> r.Ok?
      ensures r.Ok? ==> entries == old(entries) - {key}
      ensures r.Err? ==> entries == old(entries)
    {
      if !accessible { return Err(NativeError); }
      entries := entries - {key};
      r := Ok(());
    }
  }

  /** `readNativeValue`: the value, None when absent or when a chunk is missing; native errors propagate. */
  method ReadNativeValue(store: SecureStore, sk: string) returns (r: Result<Option<string>, NativeError>)
    ensures store.accessible ==> r.Ok?
    ensures r.Ok? ==> r.value == Stored(store.entries, sk)
  {
    var ck := CountKey(sk);
    var countRaw := store.GetItemAsync(ck);
    if countRaw.Err? {
      return Err(countRaw.error);
    }
    if countRaw.value.None? || countRaw.value.value == "" {
      r := store.GetItemAsync(sk);
      return;
    }
    var count := ParsedCount(countRaw.value.value);
    if count == 0 {
      return Ok(None);
    }
    var chunks: seq<string> := [];
    var i := 0;
    while i < count
      invariant 0 <= i <= count
      invariant Gather(store.entries, sk, i) == Some(chunks)
    {
      var part := store.GetItemAsync(ChunkKey(sk, i));
      if part.Err? {
        return Err(part.error);
      }
      if part.value.None? {
        GatherAllOrNothing(store.entries, sk, count);
        return Ok(None);
      }
      chunks := chunks + [part.value.value];
      i := i + 1;
    }
    r := Ok(Some(Concat(chunks)));
  }

  /**
   * `clearNativeValue`: deletes the counted chunks and the marker, then the direct key.
   * Even when a native call fails midway it has only deleted keys of `sk`.
   */
  method ClearNativeValue(store: SecureStore, sk: string) returns (r: Result<(), NativeError>)
    modifies store
    ensures store.accessible ==> r.Ok?
    ensures r.Ok? ==> store.entries == Cleared(old(store.entries), sk)
    ensures store.entries.Keys <= old(store.entries).Keys
    ensures forall k :: k in store.entries ==> store.entries[k] == old(store.entries)[k]
    ensures SameOutside(old(store.entries), store.entries, sk)
  {
    var ck := CountKey(sk);
    var countRaw := store.GetItemAsync(ck);
    if countRaw.Err? {
      return Err(countRaw.error);
    }
    if countRaw.value.Some? && countRaw.value.value != "" {
      var count := ParsedCount(countRaw.value.value);
      r := DeleteChunks(store, sk, count);
      if r.Err? {
        ghost var i :| 0 <= i <= count && store.entries == old(store.entries) - ChunkKeysBelow(sk, i);
        ChunkPrefixRemoved(old(store.entries), sk, i);
        return;
      }
      ChunkPrefixRemoved(old(store.entries), sk, count);
      r := store.DeleteItemAsync(ck);
      if r.Err? {
        return;
      }
      ClearedCounted(old(store.entries), sk);
    }
    r := store.DeleteItemAsync(sk);
  }

  /** With a non-empty count marker, clearing removes the counted chunks, the marker and the direct key. */
  lemma ClearedCounted(m: map<string, string>, sk: string)
    requires CountKey(sk) in m && m[CountKey(sk)] != ""
    ensures Cleared(m, sk) == m - ChunkKeysBelow(sk, ParsedCount(m[CountKey(sk)])) - {CountKey(sk)} - {sk}
  {
    var n := ParsedCount(m[CountKey(sk)]);
    assert ClearedKeys(m, sk) == ChunkKeysBelow(sk, n) + {CountKey(sk)} + {sk};
  }

  /** The chunk loop of `clearNativeValue`: deletes chunks 0 .. count - 1, stopping at the first failure. */
  method DeleteChunks(store: SecureStore, sk: string, count: nat) returns (r: Result<(), NativeError>)
    modifies store
    ensures store.accessible ==> r.Ok?
    ensures r.Ok? ==> store.entries == old(store.entries) - ChunkKeysBelow(sk, count)
    ensures exists i :: 0 <= i <= count && store.entries == old(store.entries) - ChunkKeysBelow(sk, i)
  {
    r := Ok(());
    var i := 0;
    while i < count
      invariant 0 <= i <= count && r.Ok?
      invariant store.entries == old(store.entries) - ChunkKeysBelow(sk, i)
    {
      r := store.DeleteItemAsync(ChunkKey(sk, i));
      if r.Err? {
        return;
      }
      assert ChunkKeysBelow(sk, i + 1) == ChunkKeysBelow(sk, i) + {ChunkKey(sk, i)};
      i := i + 1;
    }
  }

  /** Deleting the first j chunks, then the count marker, then the direct key only removes entries of `sk`. */
  lemma ChunkPrefixRemoved(m: map<string, string>, sk: string, j: nat)
    ensures var m1 := m - ChunkKeysBelow(sk, j);
      && m1.Keys <= m.Keys && (forall k :: k in m1 ==> m1[k] == m[k]) && SameOutside(m, m1, sk)
    ensures var m2 := m - ChunkKeysBelow(sk, j) - {CountKey(sk)};
      && m2.Keys <= m.Keys && (forall k :: k in m2 ==> m2[k] == m[k]) && SameOutside(m, m2, sk)
    ensures var m3 := m - ChunkKeysBelow(sk, j) - {CountKey(sk)} - {sk};
      && m3.Keys <= m.Keys && (forall k :: k in m3 ==> m3[k] == m[k]) && SameOutside(m, m3, sk)
  {
  }

  /** One step of the chunking loop: the chunks from position i on start with the slice at i. */
  lemma ChunksFrom(value: string, i: nat)
    requires i < |value|
    ensures Chunks(value[i..]) == [value[i..Min(i + ChunkSize, |value|)]] + Chunks(value[Min(i + ChunkSize, |value|)..])
  {
    var k := Min(ChunkSize, |value| - i);
    assert value[i..][..k] == value[i..i + k] && value[i..][k..] == value[i + k..];
  }

  /** The chunking loop of `writeNativeValue`: `value.slice(i, i + ChunkSize)` for each step i. */
  method SplitIntoChunks(value: string) returns (chunks: seq<string>)
    ensures chunks == Chunks(value)
  {
    chunks := [];
    var i := 0;
    while i < |value|
      invariant 0 <= i
      invariant chunks + Chunks(value[Min(i, |value|)..]) == Chunks(value)
      decreases |value| - i
    {
      ChunksFrom(value, i);
      var part := value[i..Min(i + ChunkSize, |value|)];
      assert chunks + Chunks(value[i..]) == (chunks + [part]) + Chunks(value[Min(i + ChunkSize, |value|)..]);
      chunks := chunks + [part];
      i := i + ChunkSize;
    }
    assert value[|value|..] == [];
  }

  /** Stores chunk j under ChunkKey(sk, j), one native call at a time. */
  method StoreChunks(store: SecureStore, sk: string, chunks: seq<string>) returns (r: Result<(), NativeError>)
    modifies store
    ensures store.accessible ==> r.Ok?
    ensures r.Ok? ==> store.entries == PutChunks(old(store.entries), sk, chunks, |chunks|)
    ensures SameOutside(old(store.entries), store.entries, sk)
  {
    r := Ok(());
    var j := 0;
    while j < |chunks|
      invariant 0 <= j <= |chunks| && r.Ok?
      invariant store.entries == PutChunks(old(store.entries), sk, chunks, j)
      invariant SameOutside(old(store.entries), store.entries, sk)
    {
      assert OwnKey(sk, ChunkKey(sk, j));
      r := store.SetItemAsync(ChunkKey(sk, j), chunks[j]);
      if r.Err? {
        return;
      }
      j := j + 1;
    }
  }

  /**
   * `writeNativeValue`: clears, then stores the value directly or as chunks plus a
   * count marker. Whatever happens, keys outside the namespace of `sk` are untouched.
   */
  method WriteNativeValue(store: SecureStore, sk: string, value: string) returns (r: Result<(), NativeError>)
    modifies store
    ensures store.accessible ==> r.Ok?
    ensures r.Ok? ==> store.entries == Written(old(store.entries), sk, value)
    ensures SameOutside(old(store.entries), store.entries, sk)
  {
    r := ClearNativeValue(store, sk);
    if r.Err? {
      return;
    }
    if |value| <= ChunkSize {
      assert OwnKey(sk, sk);
      r := store.SetItemAsync(sk, value);
      return;
    }
    var chunks := SplitIntoChunks(value);
    r := StoreChunks(store, sk, chunks);
    if r.Err? {
      return;
    }
    assert OwnKey(sk, CountKey(sk));
    r := store.SetItemAsync(CountKey(sk), NatToString(|chunks|));
  }

  // ---------------------------------------------------------------- supabaseStorage (native branch)

  /** `getItem`: a native failure reads as "absent", never as an error. */
  method GetItem(store: SecureStore, key: string) returns (r: Option<string>)
    ensures r == None || r == Stored(store.entries, StorageKey(key))
    ensures store.accessible ==> r == Stored(store.entries, StorageKey(key))
  {
    var res := ReadNativeValue(store, StorageKey(key));
    r := if res.Ok? then res.value else None;
  }

  /** `setItem`: a native failure is passed on to the caller. */
  method SetItem(store: SecureStore, key: string, value: string) returns (r: Result<(), NativeError>)
    modifies store
    ensures store.accessible ==> r.Ok?
    ensures r.Ok? ==> store.entries == Written(old(store.entries), StorageKey(key), value)
    ensures SameOutside(old(store.entries), store.entries, StorageKey(key))
  {
    r := WriteNativeValue(store, StorageKey(key), value);
  }

  /** `removeItem`: a native failure is swallowed; at worst part of the key's entries remain. */
  method RemoveItem(store: SecureStore, key: string)
    modifies store
    ensures store.accessible ==> store.entries == Cleared(old(store.entries), StorageKey(key))
    ensures store.entries.Keys <= old(store.entries).Keys
    ensures forall k :: k in store.entries ==> store.entries[k] == old(store.entries)[k]
    ensures SameOutside(old(store.entries), store.entries, StorageKey(key))
  {
    var _ := ClearNativeValue(store, StorageKey(key));
  }

  // ---------------------------------------------------------------- createSupabaseClient

  datatype ConfigError = MissingUrl | MissingAnonKey

  datatype ClientOptions = ClientOptions(
    url: string,
    anonKey: string,
    authorization: Option<string>,
    autoRefreshToken: bool,
    persistSession: bool,
    detectSessionInUrl: bool)

  /**
   * `createSupabaseClient(token)`: the URL is checked first, then the anon key; both are
   * trimmed; a non-empty token becomes a bearer Authorization header.
   */
  function CreateSupabaseClient(envUrl: Option<string>, envAnonKey: Option<string>, token: Option<string>)
    : (r: Result<ClientOptions, ConfigError>)
    ensures r == Err(MissingUrl) <==> envUrl.None? || Blank(envUrl.value)
    ensures r == Err(MissingAnonKey) <==>
      envUrl.Some? && !Blank(envUrl.value) && (envAnonKey.None? || Blank(envAnonKey.value))
    ensures r.Ok? ==>
      && r.value.url == Trim(envUrl.value) && r.value.url != ""
      && r.value.anonKey == Trim(envAnonKey.value) && r.value.anonKey != ""
      && (r.value.authorization.Some? <==> token.Some? && token.value != "")
      && (r.value.authorization.Some? ==> r.value.authorization.value == "Bearer " + token.value)
      && r.value.autoRefreshToken && r.value.persistSession && !r.value.detectSessionInUrl
  {
    var rawUrl := if envUrl.Some? then envUrl.value else "";
    var rawKey := if envAnonKey.Some? then envAnonKey.value else "";
    TrimEmptyIffBlank(rawUrl);
    TrimEmptyIffBlank(rawKey);
    var url, anonKey := Trim(rawUrl), Trim(rawKey);
    if url == "" then Err(MissingUrl)
    else if anonKey == "" then Err(MissingAnonKey)
    else
      var header := if token.Some? && token.value != "" then Some("Bearer " + token.value) else None;
      Ok(ClientOptions(url, anonKey, header, true, true, false))
  }
}

=== FILE: supabase_hook.dfy ===
/**
 * The data-access layer of src/app/hooks/useSupabase.ts: Bangladeshi phone
 * normalization, the validation chain and payload of every operation, and the
 * operations themselves over an in-memory model of the three remote tables
 * (businesses, stocks, customer_suppliers), all scoped to the signed-in user's
 * single business.
 */
module SupabaseHook {
  import opened Wrappers
  import opened Text

  // ================================================================ phone numbers

  /**
   * `normalizeBdPhone`: keep the digits, then canonicalise the first matching form
   * (00880 + 10 digits, 880 + 10 digits, 01 + 9 digits, 1 + 9 digits) to 0 + 10 digits.
   */
  function NormalizeBdPhone(rawValue: string): (r: string)
    ensures AllDigits(r)
    ensures |r| == 11 || r == KeepDigits(rawValue)
  {
    var digits := KeepDigits(rawValue);
    if "00880" <= digits && |digits| >= 15 then "0" + digits[5..15]
    else if "880" <= digits && |digits| >= 13 then "0" + digits[3..13]
    else if "01" <= digits && |digits| >= 11 then digits[..11]
    else if "1" <= digits && |digits| == 10 then "0" + digits
    else digits
  }

  /** `/^01\d{9}$/`: an 11-digit Bangladeshi mobile number. */
  predicate IsBdMobile(s: string) {
    |s| == 11 && s[0] == '0' && s[1] == '1' && AllDigits(s)
  }

  /** Normalizing twice is normalizing once. */
  lemma NormalizeIdempotent(rawValue: string)
    ensures NormalizeBdPhone(NormalizeBdPhone(rawValue)) == NormalizeBdPhone(rawValue)
  {
    var r := NormalizeBdPhone(rawValue);
    KeepDigitsOfDigits(r);
    if r != KeepDigits(rawValue) {
      // one of the four prefix rules fired: r is 0 followed by ten digits
      assert |r| == 11 && r[0] == '0';
      assert r[..3] != "880" by { assert r[..3][0] == '0'; }
      assert r[..1] != "1" by { assert r[..1][0] == '0'; }
      if "01" <= r {
        assert r[..11] == r;
      }
    }
  }

  /** A number already in canonical form is left alone. */
  lemma NormalizeKeepsBdMobile(s: string)
    requires IsBdMobile(s)
    ensures NormalizeBdPhone(s) == s
  {
    KeepDigitsOfDigits(s);
    assert s[..2] == "01" && s[..11] == s;
  }

  /** The three international forms of a number all become 0 followed by the ten local digits. */
  lemma NormalizeCountryCode(local: string)
    requires |local| == 10 && AllDigits(local)
    ensures NormalizeBdPhone("00880" + local) == "0" + local
    ensures NormalizeBdPhone("880" + local) == "0" + local
    ensures NormalizeBdPhone("+880" + local) == "0" + local
  {
    var a := "00880" + local;
    KeepDigitsOfDigits(a);
    assert "00880" <= a && a[5..15] == local;
    var b := "880" + local;
    KeepDigitsOfDigits(b);
    assert !("00880" <= b) by { assert b[0] != "00880"[0]; }
    assert "880" <= b && b[3..13] == local;
    var c := "+880" + local;
    assert c[1..] == b;
    assert KeepDigits(c) == b;
  }

  /** A ten-digit number without the trunk prefix gets its leading 0. */
  lemma NormalizeLocalTen(local: string)
    requires |local| == 10 && AllDigits(local) && local[0] == '1'
    ensures NormalizeBdPhone(local) == "0" + local
  {
    KeepDigitsOfDigits(local);
    assert !("00880" <= local) by { assert local[0] != "00880"[0]; }
    assert !("880" <= local) by { assert local[0] != "880"[0]; }
    assert !("01" <= local) by { assert local[0] != "01"[0]; }
    assert "1" <= local;
  }

  // ================================================================ numbers

  /** A JavaScript number: finite, or NaN / an infinity (they fail the same checks). */
  datatype Num = Finite(value: real) | NonFinite

  /** `Number.isFinite(n) && n > 0` */
  predicate IsPositive(n: Num) { n.Finite? && n.value > 0.0 }

  /** `Number.isFinite(n) && n >= 0` */
  predicate IsNonNegative(n: Num) { n.Finite? && n.value >= 0.0 }

  /** A default parameter `= 0`: None stands for `undefined`. */
  function OrZero(n: Option<Num>): Num {
    if n.Some? then n.value else Finite(0.0)
  }

  /** `Number(x.toFixed(2))` on the exact value: round half away from zero to whole cents. */
  function Round2(x: real): real {
    if x >= 0.0 then FloorInt(x * 100.0 + 0.5) as real / 100.0
    else -(FloorInt((-x) * 100.0 + 0.5) as real / 100.0)
  }

  /** The integer at or just below `y`. */
  function FloorInt(y: real): int {
    assert y.Floor as real <= y < y.Floor as real + 1.0;
    var k: int :| k as real <= y < k as real + 1.0;
    k
  }

  /** Rounding to cents moves a value by at most half a cent and keeps its sign. */
  lemma Round2Bounds(x: real)
    ensures x - 0.005 <= Round2(x) <= x + 0.005
    ensures x >= 0.0 ==> Round2(x) >= 0.0
    ensures x <= 0.0 ==> Round2(x) <= 0.0
  {
  }

  /** A whole number of cents is its own rounding. */
  lemma Round2OfCents(k: int)
    ensures Round2(k as real / 100.0) == k as real / 100.0
  {
    var x := k as real / 100.0;
    if k >= 0 {
      assert x * 100.0 + 0.5 == k as real + 0.5;
      assert FloorInt(k as real + 0.5) == k;
    } else {
      assert (-x) * 100.0 + 0.5 == (-k) as real + 0.5;
      assert FloorInt((-k) as real + 0.5) == -k;
    }
  }

  /** `Number((costPerUnit * openingStock).toFixed(2))`: the stored total cost. */
  function TotalCost(costPerUnit: real, openingStock: real): (r: real)
    ensures costPerUnit >= 0.0 && openingStock >= 0.0 ==> r >= 0.0
  {
    Round2Bounds(costPerUnit * openingStock);
    Round2(costPerUnit * openingStock)
  }

  // ================================================================ data model

  /** The auth state the hook reads from the identity provider. */
  datatype Auth = Auth(isLoaded: bool, isSignedIn: bool, userId: Option<string>)

  /** `isLoaded && isSignedIn && userId` (an empty id is falsy). */
  predicate Ready(auth: Auth) {
    auth.isLoaded && auth.isSignedIn && auth.userId.Some? && auth.userId.value != ""
  }

  datatype Business = Business(id: string, userId: string, name: string, createdAt: nat)

  const DefaultBusinessName: string := "My Shop"

  /** A row of a tenant-scoped table; `isActive` is the soft-delete flag. */
  datatype Row<T> = Row(id: string, userId: string, businessId: string, createdAt: nat, isActive: bool, data: T)

  /**
   * A stock row's own columns. `total_cost` is always written as the rounded product of
   * cost and opening stock (on insert and on every update), so it is the derived value
   * `StockTotalCost(d)` rather than a field of its own.
   */
  datatype StockData = StockData(
    name: string, unit: string, costPerUnit: real, openingStock: real, totalSold: real)

  /** The `total_cost` column of a stock row. */
  function StockTotalCost(d: StockData): (r: real)
    ensures d.costPerUnit >= 0.0 && d.openingStock >= 0.0 ==> r >= 0.0
  {
    TotalCost(d.costPerUnit, d.openingStock)
  }

  datatype PartyType = Customer | Supplier

  datatype PartyData = PartyData(
    partyType: PartyType, name: string, phone: string,
    totalPayable: real, totalReceivable: real,
    description: Option<string>, recordDate: string, avatarUrl: Option<string>)

  type Stock = Row<StockData>
  type CustomerSupplier = Row<PartyData>

  /** What the data model demands of a stock row; total cost is derived, never supplied. */
  predicate StockInvariant(d: StockData) {
    && !Blank(d.name) && !Blank(d.unit)
    && d.costPerUnit > 0.0 && d.openingStock >= 0.0 && d.totalSold >= 0.0
  }

  /** What the data model demands of a customer/supplier row. */
  predicate PartyInvariant(d: PartyData) {
    !Blank(d.name) && IsBdMobile(d.phone) && d.totalPayable >= 0.0 && d.totalReceivable >= 0.0
  }

  datatype BackendError = NetworkFailure | NotSingleRow

  datatype DataError =
    | AuthNotReady
    | StockIdRequired | StockNameRequired | StockUnitRequired
    | CostNotPositive | OpeningStockNegative | TotalSoldNegative
    | PartyIdRequired | NameRequired | PhoneInvalid | PayableNegative | ReceivableNegative
    | BusinessNotFound
    | Backend(cause: BackendError)

  // ================================================================ validation chains

  datatype CreateStockInput = CreateStockInput(name: string, unit: string, costPerUnit: Num, openingStock: Option<Num>)

  datatype UpdateStockInput = UpdateStockInput(
    id: string, name: string, unit: string, costPerUnit: Num, openingStock: Num, totalSold: Num)

  /** The stock field checks shared by create and update, in source order. */
  function StockFieldsError(name: string, unit: string, costPerUnit: Num, openingStock: Num): (e: Option<DataError>)
    ensures e.None? <==> !Blank(name) && !Blank(unit) && IsPositive(costPerUnit) && IsNonNegative(openingStock)
    ensures Blank(name) ==> e == Some(StockNameRequired)
    ensures !Blank(name) && Blank(unit) ==> e == Some(StockUnitRequired)
    ensures !Blank(name) && !Blank(unit) && !IsPositive(costPerUnit) ==> e == Some(CostNotPositive)
    ensures !Blank(name) && !Blank(unit) && IsPositive(costPerUnit) && !IsNonNegative(openingStock) ==>
      e == Some(OpeningStockNegative)
  {
    TrimEmptyIffBlank(name);
    TrimEmptyIffBlank(unit);
    if Trim(name) == "" then Some(StockNameRequired)
    else if Trim(unit) == "" then Some(StockUnitRequired)
    else if costPerUnit.NonFinite? || costPerUnit.value <= 0.0 then Some(CostNotPositive)
    else if openingStock.NonFinite? || openingStock.value < 0.0 then Some(OpeningStockNegative)
    else None
  }

  /** The fields written for a validated stock (the total cost column follows from them). */
  function StockPayload(name: string, unit: string, costPerUnit: real, openingStock: real, totalSold: real): StockData {
    StockData(Trim(name), Trim(unit), costPerUnit, openingStock, totalSold)
  }

  /** `createStock` up to the business lookup: every check, in order, then the insert payload. */
  function ValidateCreateStock(auth: Auth, input: CreateStockInput): (r: Result<StockData, DataError>)
    ensures !Ready(auth) ==> r == Err(AuthNotReady)
    ensures Ready(auth) ==>
      var e := StockFieldsError(input.name, input.unit, input.costPerUnit, OrZero(input.openingStock));
      (r.Err? <==> e.Some?) && (r.Err? ==> r.error == e.value)
    ensures r.Ok? ==>
      && StockInvariant(r.value)
      && r.value.totalSold == 0.0
      && r.value.name == Trim(input.name) && r.value.unit == Trim(input.unit)
      && r.value.costPerUnit == input.costPerUnit.value
      && r.value.openingStock == OrZero(input.openingStock).value
  {
    var openingStock := OrZero(input.openingStock);
    if !Ready(auth) then Err(AuthNotReady)
    else match StockFieldsError(input.name, input.unit, input.costPerUnit, openingStock)
      case Some(e) => Err(e)
      case None =>
        TrimmedNotBlank(input.name);
        TrimmedNotBlank(input.unit);
        Ok(StockPayload(input.name, input.unit, input.costPerUnit.value, openingStock.value, 0.0))
  }

  /** `updateStock` up to the business lookup: the id, the create checks, then total sold. */
  function ValidateUpdateStock(auth: Auth, input: UpdateStockInput): (r: Result<StockData, DataError>)
    ensures !Ready(auth) ==> r == Err(AuthNotReady)
    ensures Ready(auth) && Blank(input.id) ==> r == Err(StockIdRequired)
    ensures Ready(auth) && !Blank(input.id) ==>
      var e := StockFieldsError(input.name, input.unit, input.costPerUnit, input.openingStock);
      && (e.Some? ==> r == Err(e.value))
      && (e.None? && !IsNonNegative(input.totalSold) ==> r == Err(TotalSoldNegative))
      && (e.None? && IsNonNegative(input.totalSold) ==> r.Ok?)
    ensures r.Ok? ==>
      && StockInvariant(r.value)
      && r.value.totalSold == input.totalSold.value
      && r.value.name == Trim(input.name) && r.value.unit == Trim(input.unit)
      && r.value.costPerUnit == input.costPerUnit.value && r.value.openingStock == input.openingStock.value
  {
    TrimEmptyIffBlank(input.id);
    if !Ready(auth) then Err(AuthNotReady)
    else if Trim(input.id) == "" then Err(StockIdRequired)
    else match StockFieldsError(input.name, input.unit, input.costPerUnit, input.openingStock)
      case Some(e) => Err(e)
      case None =>
        if input.totalSold.NonFinite? || input.totalSold.value < 0.0 then Err(TotalSoldNegative)
        else
          TrimmedNotBlank(input.name);
          TrimmedNotBlank(input.unit);
          Ok(StockPayload(input.name, input.unit, input.costPerUnit.value, input.openingStock.value,
                          input.totalSold.value))
  }

  datatype CreatePartyInput = CreatePartyInput(
    partyType: PartyType, name: string, phone: string,
    totalPayable: Option<Num>, totalReceivable: Option<Num>,
    description: Option<string>, recordDate: Option<string>, avatarUrl: Option<Option<string>>)

  /**
   * The arguments of `updateCustomerSupplier`. For description, recordDate and avatarUrl
   * None means the argument was left out (`undefined`); `avatarUrl == Some(None)` is an
   * explicit `null`.
   */
  datatype UpdatePartyInput = UpdatePartyInput(
    id: string, partyType: PartyType, name: string, phone: string,
    totalPayable: Option<Num>, totalReceivable: Option<Num>,
    description: Option<string>, recordDate: Option<string>, avatarUrl: Option<Option<string>>)

  /** The customer/supplier field checks shared by create and update, in source order. */
  function PartyFieldsError(name: string, cleanedPhone: string, totalPayable: Num, totalReceivable: Num)
    : (e: Option<DataError>)
    ensures e.None? <==>
      !Blank(name) && IsBdMobile(cleanedPhone) && IsNonNegative(totalPayable) && IsNonNegative(totalReceivable)
    ensures Blank(name) ==> e == Some(NameRequired)
    ensures !Blank(name) && !IsBdMobile(cleanedPhone) ==> e == Some(PhoneInvalid)
    ensures !Blank(name) && IsBdMobile(cleanedPhone) && !IsNonNegative(totalPayable) ==> e == Some(PayableNegative)
    ensures !Blank(name) && IsBdMobile(cleanedPhone) && IsNonNegative(totalPayable) && !IsNonNegative(totalReceivable) ==>
      e == Some(ReceivableNegative)
  {
    TrimEmptyIffBlank(name);
    if Trim(name) == "" then Some(NameRequired)
    else if !IsBdMobile(cleanedPhone) then Some(PhoneInvalid)
    else if totalPayable.NonFinite? || totalPayable.value < 0.0 then Some(PayableNegative)
    else if totalReceivable.NonFinite? || totalReceivable.value < 0.0 then Some(ReceivableNegative)
    else None
  }

  /** `description?.trim() || null`: a missing or blank description is stored as null. */
  function CleanDescription(description: Option<string>): (r: Option<string>)
    ensures r.None? <==> description.None? || Blank(description.value)
    ensures r.Some? ==> r.value == Trim(description.value)
  {
    if description.None? then None
    else
      TrimEmptyIffBlank(description.value);
      var t := Trim(description.value);
      if t == "" then None else Some(t)
  }

  /** `createCustomerSupplier` up to the business lookup; `today` is the current ISO date. */
  function ValidateCreateParty(auth: Auth, input: CreatePartyInput, today: string): (r: Result<PartyData, DataError>)
    ensures !Ready(auth) ==> r == Err(AuthNotReady)
    ensures Ready(auth) ==>
      var e := PartyFieldsError(input.name, NormalizeBdPhone(input.phone),
                                OrZero(input.totalPayable), OrZero(input.totalReceivable));
      (r.Err? <==> e.Some?) && (r.Err? ==> r.error == e.value)
    ensures r.Ok? ==>
      && PartyInvariant(r.value)
      && r.value.partyType == input.partyType
      && r.value.name == Trim(input.name)
      && r.value.phone == NormalizeBdPhone(input.phone)
      && r.value.totalPayable == Round2(OrZero(input.totalPayable).value)
      && r.value.totalReceivable == Round2(OrZero(input.totalReceivable).value)
      && r.value.description == CleanDescription(input.description)
      && r.value.recordDate == (if input.recordDate.Some? then input.recordDate.value else today)
      && r.value.avatarUrl == (if input.avatarUrl.Some? then input.avatarUrl.value else None)
  {
    var phone := NormalizeBdPhone(input.phone);
    var payable, receivable := OrZero(input.totalPayable), OrZero(input.totalReceivable);
    if !Ready(auth) then Err(AuthNotReady)
    else match PartyFieldsError(input.name, phone, payable, receivable)
      case Some(e) => Err(e)
      case None =>
        TrimmedNotBlank(input.name);
        Round2Bounds(payable.value);
        Round2Bounds(receivable.value);
        var name := Trim(input.name);
        Ok(PartyData(
          input.partyType, name, phone,
          Round2(payable.value), Round2(receivable.value),
          CleanDescription(input.description),
          if input.recordDate.Some? then input.recordDate.value else today,
          if input.avatarUrl.Some? then input.avatarUrl.value else None))
  }

  /**
   * The update payload: the five fields always written, and the three optional ones,
   * each None when the argument was left out (so the column is not written).
   */
  datatype PartyPatch = PartyPatch(
    partyType: PartyType, name: string, phone: string,
    totalPayable: real, totalReceivable: real,
    description: Option<Option<string>>, recordDate: Option<string>, avatarUrl: Option<Option<string>>)

  datatype PartyUpdate = PartyUpdate(id: string, patch: PartyPatch)

  predicate PatchInvariant(p: PartyPatch) {
    !Blank(p.name) && IsBdMobile(p.phone) && p.totalPayable >= 0.0 && p.totalReceivable >= 0.0
  }

  /** `updateCustomerSupplier` up to the business lookup: the trimmed id and the update payload. */
  function ValidateUpdateParty(auth: Auth, input: UpdatePartyInput): (r: Result<PartyUpdate, DataError>)
    ensures !Ready(auth) ==> r == Err(AuthNotReady)
    ensures Ready(auth) && Blank(input.id) ==> r == Err(PartyIdRequired)
    ensures Ready(auth) && !Blank(input.id) ==>
      var e := PartyFieldsError(input.name, NormalizeBdPhone(input.phone),
                                OrZero(input.totalPayable), OrZero(input.totalReceivable));
      (r.Err? <==> e.Some?) && (r.Err? ==> r.error == e.value)
    ensures r.Ok? ==>
      && r.value.id == Trim(input.id) && r.value.id != ""
      && PatchInvariant(r.value.patch)
      && r.value.patch.partyType == input.partyType
      && r.value.patch.name == Trim(input.name)
      && r.value.patch.phone == NormalizeBdPhone(input.phone)
      && r.value.patch.totalPayable == Round2(OrZero(input.totalPayable).value)
      && r.value.patch.totalReceivable == Round2(OrZero(input.totalReceivable).value)
      && (r.value.patch.description.Some? <==> input.description.Some?)
      && (input.description.Some? ==> r.value.patch.description.value == CleanDescription(input.description))
      && r.value.patch.recordDate == input.recordDate
      && r.value.patch.avatarUrl == input.avatarUrl
  {
    TrimEmptyIffBlank(input.id);
    var phone := NormalizeBdPhone(input.phone);
    var payable, receivable := OrZero(input.totalPayable), OrZero(input.totalReceivable);
    if !Ready(auth) then Err(AuthNotReady)
    else if Trim(input.id) == "" then Err(PartyIdRequired)
    else match PartyFieldsError(input.name, phone, payable, receivable)
      case Some(e) => Err(e)
      case None =>
        TrimmedNotBlank(input.name);
        Round2Bounds(payable.value);
        Round2Bounds(receivable.value);
        var name := Trim(input.name);
        var description := if input.description.Some? then Some(CleanDescription(input.description)) else None;
        Ok(PartyUpdate(Trim(input.id), PartyPatch(
          input.partyType, name, phone, Round2(payable.value), Round2(receivable.value),
          description, input.recordDate, input.avatarUrl)))
  }

  /** `deleteCustomerSupplier` up to the business lookup: the trimmed id. */
  function ValidateDeleteParty(auth: Auth, id: string): (r: Result<string, DataError>)
    ensures !Ready(auth) ==> r == Err(AuthNotReady)
    ensures Ready(auth) && Blank(id) ==> r == Err(PartyIdRequired)
    ensures Ready(auth) && !Blank(id) ==> r == Ok(Trim(id)) && r.value != ""
  {
    TrimEmptyIffBlank(id);
    if !Ready(auth) then Err(AuthNotReady)
    else if Trim(id) == "" then Err(PartyIdRequired)
    else Ok(Trim(id))
  }

  /** What a row holds after the update: written fields replaced, omitted ones untouched. */
  function ApplyPatch(d: PartyData, p: PartyPatch): (d': PartyData)
    ensures d'.partyType == p.partyType && d'.name == p.name && d'.phone == p.phone
    ensures d'.totalPayable == p.totalPayable && d'.totalReceivable == p.totalReceivable
    ensures p.description.None? ==> d'.description == d.description
    ensures p.description.Some? ==> d'.description == p.description.value
    ensures p.recordDate.None? ==> d'.recordDate == d.recordDate
    ensures p.recordDate.Some? ==> d'.recordDate == p.recordDate.value
    ensures p.avatarUrl.None? ==> d'.avatarUrl == d.avatarUrl
    ensures p.avatarUrl.Some? ==> d'.avatarUrl == p.avatarUrl.value
    ensures p.avatarUrl == Some(None) ==> d'.avatarUrl == None
    ensures PatchInvariant(p) ==> PartyInvariant(d')
  {
    PartyData(
      p.partyType, p.name, p.phone, p.totalPayable, p.totalReceivable,
      if p.description.Some? then p.description.value else d.description,
      if p.recordDate.Some? then p.recordDate.value else d.recordDate,
      if p.avatarUrl.Some? then p.avatarUrl.value else d.avatarUrl)
  }

  /** What `.update(updatePayload)` does to the data of a party row. */
  function PatchWith(patch: PartyPatch): PartyData -> PartyData {
    d => ApplyPatch(d, patch)
  }

  /** Sending the same update twice leaves the row as sending it once. */
  lemma ApplyPatchIdempotent(d: PartyData, p: PartyPatch)
    ensures ApplyPatch(ApplyPatch(d, p), p) == ApplyPatch(d, p)
  {
  }

  /**
   * The row after `updateCustomerSupplier` in terms of the caller's arguments: the
   * trimmed name, the normalised phone, the amounts rounded to cents (0 when left out),
   * and each optional column either rewritten from its argument or left as it was.
   */
  lemma UpdatedRowReflectsInput(auth: Auth, input: UpdatePartyInput, d: PartyData)
    requires ValidateUpdateParty(auth, input).Ok?
    ensures var d' := ApplyPatch(d, ValidateUpdateParty(auth, input).value.patch);
      && PartyInvariant(d')
      && d'.partyType == input.partyType && d'.name == Trim(input.name)
      && d'.phone == NormalizeBdPhone(input.phone)
      && d'.totalPayable == Round2(OrZero(input.totalPayable).value)
      && d'.totalReceivable == Round2(OrZero(input.totalReceivable).value)
      && d'.description == (if input.description.Some? then CleanDescription(input.description) else d.description)
      && d'.recordDate == (if input.recordDate.Some? then input.recordDate.value else d.recordDate)
      && d'.avatarUrl == (if input.avatarUrl.Some? then input.avatarUrl.value else d.avatarUrl)
  {
  }

  // ================================================================ tables

  predicate InScope<T>(r: Row<T>, id: string, userId: string, businessId: string) {
    r.id == id && r.userId == userId && r.businessId == businessId
  }

  /** `.eq("user_id", u).eq("business_id", b).eq("is_active", true)` in table order. */
  function ActiveFor<T(!new)>(rows: seq<Row<T>>, userId: string, businessId: string): (out: seq<Row<T>>)
    ensures forall r :: r in out <==> r in rows && r.userId == userId && r.businessId == businessId && r.isActive
  {
    if rows == [] then []
    else
      var rest := ActiveFor(rows[1..], userId, businessId);
      if rows[0].userId == userId && rows[0].businessId == businessId && rows[0].isActive then
        [rows[0]] + rest
      else rest
  }

  /** Filtering keeps the creation order. */
  lemma {:induction false} ActiveForIncreasing<T(!new)>(rows: seq<Row<T>>, userId: string, businessId: string)
    requires Increasing(rows)
    ensures Increasing(ActiveFor(rows, userId, businessId))
  {
    if rows != [] {
      var rest := ActiveFor(rows[1..], userId, businessId);
      assert Increasing(rows[1..]);
      ActiveForIncreasing(rows[1..], userId, businessId);
      forall r | r in rest ensures rows[0].createdAt < r.createdAt {
        var k :| 0 <= k < |rows[1..]| && rows[1..][k] == r;
        assert rows[k + 1] == r;
      }
    }
  }

  /** Rows in creation order: created_at strictly increases along the table. */
  ghost predicate Increasing<T>(rows: seq<Row<T>>) {
    forall i, j :: 0 <= i < j < |rows| ==> rows[i].createdAt < rows[j].createdAt
  }

  function Reverse<T>(s: seq<T>): (r: seq<T>)
    ensures |r| == |s| && forall i :: 0 <= i < |s| ==> r[i] == s[|s| - 1 - i]
  {
    if s == [] then [] else Reverse(s[1..]) + [s[0]]
  }

  /** `.order("created_at", { ascending: false })` over rows kept in creation order. */
  function NewestFirst<T>(rows: seq<Row<T>>): seq<Row<T>> { Reverse(rows) }

  /** Reversing rows kept in creation order puts the newest first. */
  lemma ReverseDecreasing<T>(rows: seq<Row<T>>)
    requires Increasing(rows)
    ensures forall i, j :: 0 <= i < j < |rows| ==> Reverse(rows)[i].createdAt > Reverse(rows)[j].createdAt
  {
    var out := Reverse(rows);
    forall i, j | 0 <= i < j < |rows| ensures out[i].createdAt > out[j].createdAt {
      assert out[i] == rows[|rows| - 1 - i] && out[j] == rows[|rows| - 1 - j];
    }
  }

  /** A read returns the scoped active rows with the newest first. */
  lemma NewestFirstOrdered<T(!new)>(rows: seq<Row<T>>, userId: string, businessId: string)
    requires Increasing(rows)
    ensures var out := NewestFirst(ActiveFor(rows, userId, businessId));
      forall i, j :: 0 <= i < j < |out| ==> out[i].createdAt > out[j].createdAt
  {
    ActiveForIncreasing(rows, userId, businessId);
    ReverseDecreasing(ActiveFor(rows, userId, businessId));
  }

  function CountInScope<T>(rows: seq<Row<T>>, id: string, userId: string, businessId: string): nat {
    if rows == [] then 0
    else (if InScope(rows[0], id, userId, businessId) then 1 else 0) + CountInScope(rows[1..], id, userId, businessId)
  }

  /** What `.update(payload)` does to the data of a stock row: every column is replaced. */
  function Overwrite<T>(data: T): T -> T {
    _ => data
  }

  /** `.update(f).eq("id", id).eq("user_id", u).eq("business_id", b)`: only rows in scope change. */
  function UpdateInScope<T>(rows: seq<Row<T>>, id: string, userId: string, businessId: string, f: T -> T)
    : (out: seq<Row<T>>)
    ensures |out| == |rows|
    ensures forall i :: 0 <= i < |rows| ==>
      out[i] == if InScope(rows[i], id, userId, businessId) then rows[i].(data := f(rows[i].data)) else rows[i]
  {
    if rows == [] then []
    else
      var r := rows[0];
      [if InScope(r, id, userId, businessId) then r.(data := f(r.data)) else r]
        + UpdateInScope(rows[1..], id, userId, businessId, f)
  }

  /** `.update({ is_active: false })` with the same scope: the soft delete. */
  function DeactivateInScope<T>(rows: seq<Row<T>>, id: string, userId: string, businessId: string)
    : (out: seq<Row<T>>)
    ensures |out| == |rows|
    ensures forall i :: 0 <= i < |rows| ==>
      out[i] == if InScope(rows[i], id, userId, businessId) then rows[i].(isActive := false) else rows[i]
  {
    if rows == [] then []
    else
      var r := rows[0];
      [if InScope(r, id, userId, businessId) then r.(isActive := false) else r]
        + DeactivateInScope(rows[1..], id, userId, businessId)
  }

  /** The first row in scope, as `.select(...).single()` returns it when there is exactly one. */
  function FindInScope<T>(rows: seq<Row<T>>, id: string, userId: string, businessId: string): (r: Option<Row<T>>)
    ensures r.Some? ==> r.value in rows && InScope(r.value, id, userId, businessId)
    ensures r.None? ==> CountInScope(rows, id, userId, businessId) == 0
  {
    if rows == [] then None
    else if InScope(rows[0], id, userId, businessId) then Some(rows[0])
    else FindInScope(rows[1..], id, userId, businessId)
  }

  /**
   * After a soft delete the row no longer shows up in the scoped read, yet it is still
   * in the table (same position, same data) with `isActive == false`.
   */
  lemma SoftDeleteHides<T(!new)>(rows: seq<Row<T>>, id: string, userId: string, businessId: string)
    ensures var out := DeactivateInScope(rows, id, userId, businessId);
      && (forall r :: r in ActiveFor(out, userId, businessId) ==> r.id != id)
      && (forall i :: 0 <= i < |rows| && InScope(rows[i], id, userId, businessId) ==>
            out[i] == rows[i].(isActive := false))
      && (forall i :: 0 <= i < |rows| && !InScope(rows[i], id, userId, businessId) ==> out[i] == rows[i])
  {
    var out := DeactivateInScope(rows, id, userId, businessId);
    forall r | r in ActiveFor(out, userId, businessId) ensures r.id != id {
      var i :| 0 <= i < |out| && out[i] == r;
    }
  }

  /** An update in place changes no `created_at`, so it keeps the creation order. */
  lemma UpdateKeepsTimes<T>(rows: seq<Row<T>>, id: string, userId: string, businessId: string, f: T -> T, clock: nat)
    requires Increasing(rows) && forall r :: r in rows ==> r.createdAt < clock
    ensures var out := UpdateInScope(rows, id, userId, businessId, f);
      Increasing(out) && forall r :: r in out ==> r.createdAt < clock
  {
    var out := UpdateInScope(rows, id, userId, businessId, f);
    assert forall i :: 0 <= i < |out| ==> out[i].createdAt == rows[i].createdAt;
    forall r | r in out ensures r.createdAt < clock {
      var i :| 0 <= i < |out| && out[i] == r;
      assert rows[i] in rows;
    }
  }

  /** So does a soft delete. */
  lemma DeactivateKeepsTimes<T>(rows: seq<Row<T>>, id: string, userId: string, businessId: string, clock: nat)
    requires Increasing(rows) && forall r :: r in rows ==> r.createdAt < clock
    ensures var out := DeactivateInScope(rows, id, userId, businessId);
      Increasing(out) && forall r :: r in out ==> r.createdAt < clock
  {
    var out := DeactivateInScope(rows, id, userId, businessId);
    assert forall i :: 0 <= i < |out| ==> out[i].createdAt == rows[i].createdAt;
    forall r | r in out ensures r.createdAt < clock {
      var i :| 0 <= i < |out| && out[i] == r;
      assert rows[i] in rows;
    }
  }

  /** A soft delete keeps every row's data, so it keeps every row invariant. */
  lemma DeactivateKeepsInvariant(parties: seq<CustomerSupplier>, id: string, userId: string, businessId: string)
    requires forall r :: r in parties ==> PartyInvariant(r.data)
    ensures forall r :: r in DeactivateInScope(parties, id, userId, businessId) ==> PartyInvariant(r.data)
  {
    var out := DeactivateInScope(parties, id, userId, businessId);
    forall r | r in out ensures PartyInvariant(r.data) {
      var i :| 0 <= i < |out| && out[i] == r;
      assert parties[i] in parties;
    }
  }

  /** Writing a validated patch to the rows in scope keeps every row invariant. */
  lemma PatchKeepsInvariant(parties: seq<CustomerSupplier>, id: string, userId: string, businessId: string,
                            patch: PartyPatch)
    requires forall r :: r in parties ==> PartyInvariant(r.data)
    requires PatchInvariant(patch)
    ensures forall r :: r in UpdateInScope(parties, id, userId, businessId, PatchWith(patch)) ==>
      PartyInvariant(r.data)
  {
    var out := UpdateInScope(parties, id, userId, businessId, PatchWith(patch));
    forall r | r in out ensures PartyInvariant(r.data) {
      var i :| 0 <= i < |out| && out[i] == r;
      assert parties[i] in parties;
    }
  }

  /** Writing validated stock fields to the rows in scope keeps every row invariant. */
  lemma StockUpdateKeepsInvariant(stocks: seq<Stock>, id: string, userId: string, businessId: string, data: StockData)
    requires forall r :: r in stocks ==> StockInvariant(r.data)
    requires StockInvariant(data)
    ensures forall r :: r in UpdateInScope(stocks, id, userId, businessId, Overwrite(data)) ==> StockInvariant(r.data)
  {
    var out := UpdateInScope(stocks, id, userId, businessId, Overwrite(data));
    forall r | r in out ensures StockInvariant(r.data) {
      var i :| 0 <= i < |out| && out[i] == r;
      assert stocks[i] in stocks;
    }
  }

  /** The latest business row of a user: `.eq("user_id", u).order("created_at", desc).limit(1)`. */
  function LatestBusiness(businesses: seq<Business>, userId: string): (r: Option<Business>)
    ensures r.Some? ==> r.value in businesses && r.value.userId == userId
    ensures r.None? <==> forall b :: b in businesses ==> b.userId != userId
  {
    if businesses == [] then None
    else if businesses[|businesses| - 1].userId == userId then Some(businesses[|businesses| - 1])
    else
      assert businesses == businesses[..|businesses| - 1] + [businesses[|businesses| - 1]];
      LatestBusiness(businesses[..|businesses| - 1], userId)
  }

  /** The unique constraint on `businesses.user_id`. */
  ghost predicate OnePerUser(businesses: seq<Business>) {
    forall i, j :: 0 <= i < j < |businesses| ==> businesses[i].userId != businesses[j].userId
  }

  /** `upsert({ user_id, name }, { onConflict: "user_id", ignoreDuplicates: true })` */
  function Upserted(businesses: seq<Business>, userId: string, name: string, id: string, createdAt: nat): seq<Business> {
    if LatestBusiness(businesses, userId).Some? then businesses
    else businesses + [Business(id, userId, name, createdAt)]
  }

  /**
   * What a hook call may do to the businesses table: nothing, or the one get-or-create
   * upsert for the signed-in user, which adds a row for that user only when it has none.
   */
  ghost predicate UpsertedOrKept(before: seq<Business>, after: seq<Business>, auth: Auth) {
    || after == before
    || (Ready(auth) && exists id, t :: after == Upserted(before, auth.userId.value, DefaultBusinessName, id, t))
  }

  /**
   * Get-or-create converges: under the unique constraint the first upsert leaves exactly
   * one business for the user, and a second upsert changes nothing and resolves to it.
   */
  lemma UpsertConverges(businesses: seq<Business>, userId: string, name: string,
                        id1: string, t1: nat, id2: string, t2: nat)
    requires OnePerUser(businesses)
    ensures var once := Upserted(businesses, userId, name, id1, t1);
      && OnePerUser(once)
      && LatestBusiness(once, userId).Some?
      && (LatestBusiness(businesses, userId).Some? ==> once == businesses)
      && Upserted(once, userId, name, id2, t2) == once
  {
    var once := Upserted(businesses, userId, name, id1, t1);
    if LatestBusiness(businesses, userId).None? {
      assert once[|once| - 1].userId == userId;
    }
  }

  // ================================================================ the remote backend

  /**
   * The three remote tables. While the backend is online every request is answered;
   * otherwise any request may fail (network, backend error), and a request that fails
   * changes nothing. Ids and `created_at` come from a backend counter.
   */
  class Backend {
    var businesses: seq<Business>
    var stocks: seq<Stock>
    var parties: seq<CustomerSupplier>
    var clock: nat
    const online: bool

    ghost predicate Valid()
      reads this
    {
      && OnePerUser(businesses)
      && (forall b :: b in businesses ==> b.id != "")
      && Increasing(stocks) && Increasing(parties)
      && (forall b :: b in businesses ==> b.createdAt < clock)
      && (forall r :: r in stocks ==> r.createdAt < clock)
      && (forall r :: r in parties ==> r.createdAt < clock)
    }

    constructor (online: bool)
      ensures Valid() && businesses == [] && stocks == [] && parties == [] && this.online == online
    {
      businesses, stocks, parties := [], [], [];
      clock := 0;
      this.online := online;
    }

    method UpsertBusiness(userId: string, name: string) returns (r: Result<seq<Business>, BackendError>)
      requires Valid()
      modifies this
      ensures Valid()
      ensures stocks == old(stocks) && parties == old(parties)
      ensures online ==> r.Ok?
      ensures r.Err? ==> businesses == old(businesses)
      ensures r.Ok? ==> exists id, t ::
        && businesses == Upserted(old(businesses), userId, name, id, t)
        && r.value == (if LatestBusiness(old(businesses), userId).Some? then []
                       else [Business(id, userId, name, t)])
    {
      if !online { return Err(NetworkFailure); }
      var id, t := NatToString(clock), clock;
      if LatestBusiness(businesses, userId).Some? {
        r := Ok([]);
      } else {
        businesses := businesses + [Business(id, userId, name, t)];
        clock := clock + 1;
        r := Ok([Business(id, userId, name, t)]);
      }
      assert businesses == Upserted(old(businesses), userId, name, id, t);
    }

    method SelectLatestBusiness(userId: string) returns (r: Result<Option<Business>, BackendError>)
      ensures online ==> r.Ok?
      ensures r.Ok? ==> r.value == LatestBusiness(businesses, userId)
    {
      if !online { return Err(NetworkFailure); }
      r := Ok(LatestBusiness(businesses, userId));
    }

    method InsertStock(userId: string, businessId: string, data: StockData) returns (r: Result<Stock, BackendError>)
      requires Valid()
      modifies this
      ensures Valid()
      ensures businesses == old(businesses) && parties == old(parties)
      ensures online ==> r.Ok?
      ensures r.Err? ==> stocks == old(stocks)
      ensures r.Ok? ==>
        && stocks == old(stocks) + [r.value]
        && r.value.userId == userId && r.value.businessId == businessId
        && r.value.data == data && r.value.isActive
    {
      if !online { return Err(NetworkFailure); }
      var row := Row(NatToString(clock), userId, businessId, clock, true, data);
      stocks := stocks + [row];
      clock := clock + 1;
      r := Ok(row);
    }

    method InsertParty(userId: string, businessId: string, data: PartyData) returns (r: Result<CustomerSupplier, BackendError>)
      requires Valid()
      modifies this
      ensures Valid()
      ensures businesses == old(businesses) && stocks == old(stocks)
      ensures online ==> r.Ok?
      ensures r.Err? ==> parties == old(parties)
      ensures r.Ok? ==>
        && parties == old(parties) + [r.value]
        && r.value.userId == userId && r.value.businessId == businessId
        && r.value.data == data && r.value.isActive
    {
      if !online { return Err(NetworkFailure); }
      var row := Row(NatToString(clock), userId, businessId, clock, true, data);
      parties := parties + [row];
      clock := clock + 1;
      r := Ok(row);
    }

    method SelectStocks(userId: string, businessId: string) returns (r: Result<seq<Stock>, BackendError>)
      ensures online ==> r.Ok?
      ensures r.Ok? ==> r.value == NewestFirst(ActiveFor(stocks, userId, businessId))
    {
      if !online { return Err(NetworkFailure); }
      r := Ok(NewestFirst(ActiveFor(stocks, userId, businessId)));
    }

    method SelectParties(userId: string, businessId: string) returns (r: Result<seq<CustomerSupplier>, BackendError>)
      ensures online ==> r.Ok?
      ensures r.Ok? ==> r.value == NewestFirst(ActiveFor(parties, userId, businessId))
    {
      if !online { return Err(NetworkFailure); }
      r := Ok(NewestFirst(ActiveFor(parties, userId, businessId)));
    }

    /** `.update(data)` on the scope, then `.select().single()`: applied only if exactly one row matches. */
    method UpdateStockRow(id: string, userId: string, businessId: string, data: StockData)
      returns (r: Result<Stock, BackendError>)
      requires Valid()
      modifies this
      ensures Valid()
      ensures businesses == old(businesses) && parties == old(parties)
      ensures online && CountInScope(old(stocks), id, userId, businessId) == 1 ==> r.Ok?
      ensures r.Err? ==> stocks == old(stocks)
      ensures r.Ok? ==>
        && CountInScope(old(stocks), id, userId, businessId) == 1
        && stocks == UpdateInScope(old(stocks), id, userId, businessId, Overwrite(data))
        && InScope(r.value, id, userId, businessId) && r.value.data == data
    {
      if !online { return Err(NetworkFailure); }
      if CountInScope(stocks, id, userId, businessId) != 1 { return Err(NotSingleRow); }
      var old_row := FindInScope(stocks, id, userId, businessId);
      UpdateKeepsTimes(stocks, id, userId, businessId, Overwrite(data), clock);
      stocks := UpdateInScope(stocks, id, userId, businessId, Overwrite(data));
      r := Ok(old_row.value.(data := data));
    }

    method UpdatePartyRow(id: string, userId: string, businessId: string, patch: PartyPatch)
      returns (r: Result<CustomerSupplier, BackendError>)
      requires Valid()
      modifies this
      ensures Valid()
      ensures businesses == old(businesses) && stocks == old(stocks)
      ensures online && CountInScope(old(parties), id, userId, businessId) == 1 ==> r.Ok?
      ensures r.Err? ==> parties == old(parties)
      ensures r.Ok? ==>
        && CountInScope(old(parties), id, userId, businessId) == 1
        && parties == UpdateInScope(old(parties), id, userId, businessId, PatchWith(patch))
        && InScope(r.value, id, userId, businessId)
        && r.value.data == ApplyPatch(FindInScope(old(parties), id, userId, businessId).value.data, patch)
    {
      if !online { return Err(NetworkFailure); }
      if CountInScope(parties, id, userId, businessId) != 1 { return Err(NotSingleRow); }
      var old_row := FindInScope(parties, id, userId, businessId);
      UpdateKeepsTimes(parties, id, userId, businessId, PatchWith(patch), clock);
      parties := UpdateInScope(parties, id, userId, businessId, PatchWith(patch));
      r := Ok(old_row.value.(data := ApplyPatch(old_row.value.data, patch)));
    }

    method DeactivatePartyRow(id: string, userId: string, businessId: string) returns (r: Result<string, BackendError>)
      requires Valid()
      modifies this
      ensures Valid()
      ensures businesses == old(businesses) && stocks == old(stocks)
      ensures online && CountInScope(old(parties), id, userId, businessId) == 1 ==> r.Ok?
      ensures r.Err? ==> parties == old(parties)
      ensures r.Ok? ==>
        && CountInScope(old(parties), id, userId, businessId) == 1
        && parties == DeactivateInScope(old(parties), id, userId, businessId)
        && r.value == id
    {
      if !online { return Err(NetworkFailure); }
      if CountInScope(parties, id, userId, businessId) != 1 { return Err(NotSingleRow); }
      DeactivateKeepsTimes(parties, id, userId, businessId, clock);
      parties := DeactivateInScope(parties, id, userId, businessId);
      r := Ok(id);
    }
  }

  // ================================================================ the hook

  /** The row invariants the hook keeps for every row it has written. */
  ghost predicate RowsHoldInvariants(stocks: seq<Stock>, parties: seq<CustomerSupplier>) {
    && (forall r :: r in stocks ==> StockInvariant(r.data))
    && (forall r :: r in parties ==> PartyInvariant(r.data))
  }

  /**
   * `useSupabase()`: the auth state it was rendered with, the shared `loading` flag
   * (null until the first operation) and the backend it talks to.
   */
  class UseSupabase {
    const auth: Auth
    const db: Backend
    var loading: Option<bool>

    ghost predicate Valid()
      reads this, db
    {
      db.Valid() && RowsHoldInvariants(db.stocks, db.parties)
    }

    constructor (auth: Auth, db: Backend)
      requires db.Valid() && RowsHoldInvariants(db.stocks, db.parties)
      ensures Valid() && this.auth == auth && this.db == db && loading == None
    {
      this.auth := auth;
      this.db := db;
      loading := None;
    }

    function UserId(): string
      requires Ready(auth)
    {
      auth.userId.value
    }

    /**
     * `getOrCreateBusiness`: upsert then, if the upsert returned no row, refetch the latest.
     * Every failure, including "no row", is swallowed into None.
     */
    method GetOrCreateBusiness() returns (b: Option<Business>)
      requires Valid()
      modifies this, db
      ensures Valid() && loading == Some(false)
      ensures db.stocks == old(db.stocks) && db.parties == old(db.parties)
      ensures !Ready(auth) ==> b.None? && db.businesses == old(db.businesses)
      ensures b.Some? ==> Ready(auth) && b == LatestBusiness(db.businesses, UserId())
      ensures Ready(auth) && LatestBusiness(old(db.businesses), UserId()).Some? ==>
        db.businesses == old(db.businesses) && (b.Some? ==> b == LatestBusiness(old(db.businesses), UserId()))
      ensures UpsertedOrKept(old(db.businesses), db.businesses, auth)
      ensures b.Some? ==> b.value.id != ""
      ensures Ready(auth) && db.online ==>
        && b.Some?
        && exists id, t :: db.businesses == Upserted(old(db.businesses), UserId(), DefaultBusinessName, id, t)
    {
      loading := Some(true);
      if !Ready(auth) {
        loading := Some(false);
        return None;
      }
      var upserted := db.UpsertBusiness(UserId(), DefaultBusinessName);
      if upserted.Err? {
        loading := Some(false);
        return None;
      }
      b := if |upserted.value| > 0 then Some(upserted.value[0]) else None;
      if b.None? {
        var refetched := db.SelectLatestBusiness(UserId());
        if refetched.Err? {
          loading := Some(false);
          return None;
        }
        b := refetched.value;
      }
      // A None here is the "no row was returned" error, which the catch turns into null.
      loading := Some(false);
    }

    /** `getBusiness`: read-only; None when auth is not ready, when there is no row, or on error. */
    method GetBusiness() returns (b: Option<Business>)
      ensures !Ready(auth) ==> b.None?
      ensures b.Some? ==> Ready(auth) && b == LatestBusiness(db.businesses, UserId())
      ensures Ready(auth) && db.online ==> b == LatestBusiness(db.businesses, UserId())
    {
      if !Ready(auth) {
        return None;
      }
      var result := db.SelectLatestBusiness(UserId());
      b := if result.Ok? then result.value else None;
    }

    /** `createStock`: validation before any backend call, then the business, then the insert. */
    method CreateStock(input: CreateStockInput) returns (r: Result<Stock, DataError>)
      requires Valid()
      modifies this, db
      ensures Valid() && loading == Some(false)
      ensures db.parties == old(db.parties)
      ensures ValidateCreateStock(auth, input).Err? ==>
        r == Err(ValidateCreateStock(auth, input).error) && unchanged(db)
      ensures UpsertedOrKept(old(db.businesses), db.businesses, auth)
      ensures r.Ok? ==>
        && ValidateCreateStock(auth, input).Ok?
        && r.value.data == ValidateCreateStock(auth, input).value
        && r.value.userId == UserId() && r.value.isActive
        && (exists b :: LatestBusiness(db.businesses, UserId()) == Some(b) && r.value.businessId == b.id)
        && db.stocks == old(db.stocks) + [r.value]
      ensures r.Err? ==> db.stocks == old(db.stocks)
      ensures ValidateCreateStock(auth, input).Ok? && r.Err? ==> r.error == BusinessNotFound || r.error.Backend?
      ensures db.online && ValidateCreateStock(auth, input).Ok? ==> r.Ok?
    {
      loading := Some(true);
      var payload := ValidateCreateStock(auth, input);
      if payload.Err? {
        loading := Some(false);
        return Err(payload.error);
      }
      var business := GetOrCreateBusiness();
      if business.None? || business.value.id == "" {
        loading := Some(false);
        return Err(BusinessNotFound);
      }
      var inserted := db.InsertStock(UserId(), business.value.id, payload.value);
      loading := Some(false);
      if inserted.Err? {
        return Err(Backend(inserted.error));
      }
      forall row | row in db.stocks ensures StockInvariant(row.data) {
        if row !in old(db.stocks) {
          assert row == inserted.value;
        }
      }
      assert LatestBusiness(db.businesses, UserId()) == Some(business.value);
      r := Ok(inserted.value);
    }

    /** `getStocks`: the scoped active rows, newest first; [] when not ready, without a business, or on error. */
    method GetStocks() returns (rows: seq<Stock>)
      requires Valid()
      modifies this
      ensures Valid() && loading == Some(false)
      ensures !Ready(auth) ==> rows == []
      ensures rows != [] ==>
        Ready(auth) && exists b :: (LatestBusiness(db.businesses, UserId()) == Some(b)
          && rows == NewestFirst(ActiveFor(db.stocks, UserId(), b.id)))
      ensures Ready(auth) && db.online ==>
        var latest := LatestBusiness(db.businesses, UserId());
        && (latest.Some? && latest.value.id != "" ==> rows == NewestFirst(ActiveFor(db.stocks, UserId(), latest.value.id)))
        && (latest.None? || latest.value.id == "" ==> rows == [])
    {
      loading := Some(true);
      if !Ready(auth) {
        loading := Some(false);
        return [];
      }
      var business := GetBusiness();
      if business.None? || business.value.id == "" {
        loading := Some(false);
        return [];
      }
      var result := db.SelectStocks(UserId(), business.value.id);
      loading := Some(false);
      rows := if result.Ok? then result.value else [];
    }

    /** `updateStock`: validation, the business, then the update scoped by id, user and business. */
    method UpdateStock(input: UpdateStockInput) returns (r: Result<Stock, DataError>)
      requires Valid()
      modifies this, db
      ensures Valid() && loading == Some(false)
      ensures db.parties == old(db.parties)
      ensures ValidateUpdateStock(auth, input).Err? ==>
        r == Err(ValidateUpdateStock(auth, input).error) && unchanged(db)
      ensures UpsertedOrKept(old(db.businesses), db.businesses, auth)
      ensures r.Ok? ==>
        && ValidateUpdateStock(auth, input).Ok?
        && r.value.data == ValidateUpdateStock(auth, input).value
        && exists b :: (LatestBusiness(db.businesses, UserId()) == Some(b)
          && CountInScope(old(db.stocks), input.id, UserId(), b.id) == 1
          && db.stocks == UpdateInScope(old(db.stocks), input.id, UserId(), b.id,
                                        Overwrite(ValidateUpdateStock(auth, input).value))
          && InScope(r.value, input.id, UserId(), b.id))
      ensures r.Err? ==> db.stocks == old(db.stocks)
      ensures db.online && ValidateUpdateStock(auth, input).Ok? ==>
        var latest := LatestBusiness(db.businesses, UserId());
        latest.Some? && (CountInScope(old(db.stocks), input.id, UserId(), latest.value.id) == 1 ==> r.Ok?)
    {
      loading := Some(true);
      var payload := ValidateUpdateStock(auth, input);
      if payload.Err? {
        loading := Some(false);
        return Err(payload.error);
      }
      var business := GetOrCreateBusiness();
      if business.None? || business.value.id == "" {
        loading := Some(false);
        return Err(BusinessNotFound);
      }
      var updated := db.UpdateStockRow(input.id, UserId(), business.value.id, payload.value);
      loading := Some(false);
      if updated.Err? {
        return Err(Backend(updated.error));
      }
      StockUpdateKeepsInvariant(old(db.stocks), input.id, UserId(), business.value.id, payload.value);
      r := Ok(updated.value);
    }

    /** `createCustomerSupplier`; `today` stands for `new Date().toISOString().slice(0, 10)`. */
    method CreateCustomerSupplier(input: CreatePartyInput, today: string) returns (r: Result<CustomerSupplier, DataError>)
      requires Valid()
      modifies this, db
      ensures Valid() && loading == Some(false)
      ensures db.stocks == old(db.stocks)
      ensures ValidateCreateParty(auth, input, today).Err? ==>
        r == Err(ValidateCreateParty(auth, input, today).error) && unchanged(db)
      ensures UpsertedOrKept(old(db.businesses), db.businesses, auth)
      ensures r.Ok? ==>
        && ValidateCreateParty(auth, input, today).Ok?
        && r.value.data == ValidateCreateParty(auth, input, today).value
        && r.value.userId == UserId() && r.value.isActive
        && (exists b :: LatestBusiness(db.businesses, UserId()) == Some(b) && r.value.businessId == b.id)
        && db.parties == old(db.parties) + [r.value]
      ensures r.Err? ==> db.parties == old(db.parties)
      ensures ValidateCreateParty(auth, input, today).Ok? && r.Err? ==> r.error == BusinessNotFound || r.error.Backend?
      ensures db.online && ValidateCreateParty(auth, input, today).Ok? ==> r.Ok?
    {
      loading := Some(true);
      var payload := ValidateCreateParty(auth, input, today);
      if payload.Err? {
        loading := Some(false);
        return Err(payload.error);
      }
      var business := GetOrCreateBusiness();
      if business.None? || business.value.id == "" {
        loading := Some(false);
        return Err(BusinessNotFound);
      }
      var inserted := db.InsertParty(UserId(), business.value.id, payload.value);
      loading := Some(false);
      if inserted.Err? {
        return Err(Backend(inserted.error));
      }
      forall row | row in db.parties ensures PartyInvariant(row.data) {
        if row !in old(db.parties) {
          assert row == inserted.value;
        }
      }
      assert LatestBusiness(db.businesses, UserId()) == Some(business.value);
      r := Ok(inserted.value);
    }

    /** `getCustomerSuppliers`: same fallbacks as `getStocks`. */
    method GetCustomerSuppliers() returns (rows: seq<CustomerSupplier>)
      requires Valid()
      modifies this
      ensures Valid() && loading == Some(false)
      ensures !Ready(auth) ==> rows == []
      ensures rows != [] ==>
        Ready(auth) && exists b :: (LatestBusiness(db.businesses, UserId()) == Some(b)
          && rows == NewestFirst(ActiveFor(db.parties, UserId(), b.id)))
      ensures Ready(auth) && db.online ==>
        var latest := LatestBusiness(db.businesses, UserId());
        && (latest.Some? && latest.value.id != "" ==> rows == NewestFirst(ActiveFor(db.parties, UserId(), latest.value.id)))
        && (latest.None? || latest.value.id == "" ==> rows == [])
    {
      loading := Some(true);
      if !Ready(auth) {
        loading := Some(false);
        return [];
      }
      var business := GetBusiness();
      if business.None? || business.value.id == "" {
        loading := Some(false);
        return [];
      }
      var result := db.SelectParties(UserId(), business.value.id);
      loading := Some(false);
      rows := if result.Ok? then result.value else [];
    }

    /** `updateCustomerSupplier`: writes the patch to the one row in scope; omitted fields stay. */
    method UpdateCustomerSupplier(input: UpdatePartyInput) returns (r: Result<CustomerSupplier, DataError>)
      requires Valid()
      modifies this, db
      ensures Valid() && loading == Some(false)
      ensures db.stocks == old(db.stocks)
      ensures ValidateUpdateParty(auth, input).Err? ==>
        r == Err(ValidateUpdateParty(auth, input).error) && unchanged(db)
      ensures UpsertedOrKept(old(db.businesses), db.businesses, auth)
      ensures r.Ok? ==>
        && ValidateUpdateParty(auth, input).Ok?
        && var u := ValidateUpdateParty(auth, input).value;
           exists b :: LatestBusiness(db.businesses, UserId()) == Some(b)
             && CountInScope(old(db.parties), u.id, UserId(), b.id) == 1
             && db.parties == UpdateInScope(old(db.parties), u.id, UserId(), b.id, PatchWith(u.patch))
             && InScope(r.value, u.id, UserId(), b.id)
             && r.value.data == ApplyPatch(FindInScope(old(db.parties), u.id, UserId(), b.id).value.data, u.patch)
      ensures r.Err? ==> db.parties == old(db.parties)
      ensures db.online && ValidateUpdateParty(auth, input).Ok? ==>
        var latest := LatestBusiness(db.businesses, UserId());
        latest.Some? &&
        (CountInScope(old(db.parties), ValidateUpdateParty(auth, input).value.id, UserId(), latest.value.id) == 1 ==> r.Ok?)
    {
      loading := Some(true);
      var payload := ValidateUpdateParty(auth, input);
      if payload.Err? {
        loading := Some(false);
        return Err(payload.error);
      }
      var business := GetOrCreateBusiness();
      if business.None? || business.value.id == "" {
        loading := Some(false);
        return Err(BusinessNotFound);
      }
      var u := payload.value;
      var updated := db.UpdatePartyRow(u.id, UserId(), business.value.id, u.patch);
      loading := Some(false);
      if updated.Err? {
        return Err(Backend(updated.error));
      }
      PatchKeepsInvariant(old(db.parties), u.id, UserId(), business.value.id, u.patch);
      r := Ok(updated.value);
    }

    /** `deleteCustomerSupplier`: the soft delete of the one row in scope. */
    method DeleteCustomerSupplier(id: string) returns (r: Result<bool, DataError>)
      requires Valid()
      modifies this, db
      ensures Valid() && loading == Some(false)
      ensures db.stocks == old(db.stocks)
      ensures ValidateDeleteParty(auth, id).Err? ==>
        r == Err(ValidateDeleteParty(auth, id).error) && unchanged(db)
      ensures UpsertedOrKept(old(db.businesses), db.businesses, auth)
      ensures r.Ok? ==>
        && r.value
        && ValidateDeleteParty(auth, id).Ok?
        && exists b :: (LatestBusiness(db.businesses, UserId()) == Some(b)
          && CountInScope(old(db.parties), Trim(id), UserId(), b.id) == 1
          && db.parties == DeactivateInScope(old(db.parties), Trim(id), UserId(), b.id))
      ensures r.Err? ==> db.parties == old(db.parties)
      ensures db.online && ValidateDeleteParty(auth, id).Ok? ==>
        var latest := LatestBusiness(db.businesses, UserId());
        latest.Some? && (CountInScope(old(db.parties), Trim(id), UserId(), latest.value.id) == 1 ==> r.Ok?)
    {
      loading := Some(true);
      var cleanedId := ValidateDeleteParty(auth, id);
      if cleanedId.Err? {
        loading := Some(false);
        return Err(cleanedId.error);
      }
      var business := GetOrCreateBusiness();
      if business.None? || business.value.id == "" {
        loading := Some(false);
        return Err(BusinessNotFound);
      }
      var deleted := db.DeactivatePartyRow(cleanedId.value, UserId(), business.value.id);
      loading := Some(false);
      if deleted.Err? {
        return Err(Backend(deleted.error));
      }
      DeactivateKeepsInvariant(old(db.parties), cleanedId.value, UserId(), business.value.id);
      r := Ok(true);
    }
  }
}

=== FILE: text.dfy ===
/**
 * String helpers that the source takes from the JavaScript runtime:
 * `String.prototype.trim`, the digit filter `replace(/[^0-9]/g, "")`,
 * `String(n)` on a non-negative integer and `Number.parseInt(s, 10)`.
 */
module Text {
  import opened Wrappers

  predicate IsDigit(c: char) { '0' <= c <= '9' }

  /** ECMAScript WhiteSpace and LineTerminator code points (what `trim` removes). */
  predicate IsWhitespace(c: char) {
    c == '\t' || c == '\n' || c == '\U{000B}' || c == '\U{000C}' || c == '\r' || c == ' '
    || c == '\U{00A0}' || c == '\U{1680}' || ('\U{2000}' <= c <= '\U{200A}')
    || c == '\U{2028}' || c == '\U{2029}' || c == '\U{202F}' || c == '\U{205F}'
    || c == '\U{3000}' || c == '\U{FEFF}'
  }

  predicate AllDigits(s: string) {
    forall i :: 0 <= i < |s| ==> IsDigit(s[i])
  }

  /** A string that `trim` turns into "" (JavaScript treats that as falsy). */
  predicate Blank(s: string) {
    forall i :: 0 <= i < |s| ==> IsWhitespace(s[i])
  }

  /** `trimStart`: drops the leading whitespace. */
  function TrimStart(s: string): string {
    if s != [] && IsWhitespace(s[0]) then TrimStart(s[1..]) else s
  }

  /** What `trimStart` keeps is a suffix, what it drops is whitespace, and it stops at a non-space. */
  lemma {:induction false} TrimStartSpec(s: string)
    ensures |TrimStart(s)| <= |s| && TrimStart(s) == s[|s| - |TrimStart(s)|..]
    ensures TrimStart(s) == [] || !IsWhitespace(TrimStart(s)[0])
    ensures forall i :: 0 <= i < |s| - |TrimStart(s)| ==> IsWhitespace(s[i])
  {
    if s != [] && IsWhitespace(s[0]) {
      TrimStartSpec(s[1..]);
      forall i | 0 <= i < |s| - |TrimStart(s)| ensures IsWhitespace(s[i]) {
        if i > 0 {
          assert s[i] == s[1..][i - 1];
        }
      }
    }
  }

  /** `trimEnd`: drops the trailing whitespace. */
  function TrimEnd(s: string): string {
    if s != [] && IsWhitespace(s[|s| - 1]) then TrimEnd(s[..|s| - 1]) else s
  }

  /** What `trimEnd` keeps is a prefix, what it drops is whitespace, and it stops at a non-space. */
  lemma {:induction false} TrimEndSpec(s: string)
    ensures |TrimEnd(s)| <= |s| && TrimEnd(s) == s[..|TrimEnd(s)|]
    ensures TrimEnd(s) == [] || !IsWhitespace(TrimEnd(s)[|TrimEnd(s)| - 1])
    ensures forall i :: |TrimEnd(s)| <= i < |s| ==> IsWhitespace(s[i])
  {
    if s != [] && IsWhitespace(s[|s| - 1]) {
      TrimEndSpec(s[..|s| - 1]);
      forall i | |TrimEnd(s)| <= i < |s| ensures IsWhitespace(s[i]) {
        if i < |s| - 1 {
          assert s[i] == s[..|s| - 1][i];
        }
      }
    }
  }

  /** `trim`: both ends at once. */
  function Trim(s: string): string {
    TrimEnd(TrimStart(s))
  }

  /** `trim` keeps a contiguous slice of its input with no whitespace at either end. */
  lemma TrimSpec(s: string)
    ensures exists i, j :: 0 <= i <= j <= |s| && Trim(s) == s[i..j]
    ensures Trim(s) == [] || (!IsWhitespace(Trim(s)[0]) && !IsWhitespace(Trim(s)[|Trim(s)| - 1]))
  {
    var t := TrimStart(s);
    var r := TrimEnd(t);
    TrimStartSpec(s);
    TrimEndSpec(t);
    assert r == s[|s| - |t|..|s| - |t| + |r|];
    if r != [] {
      assert r[0] == t[0];
    }
  }

  /** `!s.trim()` holds exactly when every character of `s` is whitespace. */
  lemma TrimEmptyIffBlank(s: string)
    ensures Trim(s) == [] <==> Blank(s)
  {
    var t := TrimStart(s);
    TrimStartSpec(s);
    TrimEndSpec(t);
  }

  /** Trimming keeps a string that is not blank non-blank. */
  lemma TrimmedNotBlank(s: string)
    ensures !Blank(s) ==> Trim(s) != [] && !Blank(Trim(s))
  {
    TrimEmptyIffBlank(s);
    TrimSpec(s);
  }

  /** `replace(/[^0-9]/g, "")`: the digits of `s`, in order. */
  function KeepDigits(s: string): (r: string)
    ensures AllDigits(r) && |r| <= |s|
  {
    if s == [] then []
    else if IsDigit(s[0]) then [s[0]] + KeepDigits(s[1..])
    else KeepDigits(s[1..])
  }

  /** Filtering a string of digits gives it back unchanged. */
  lemma {:induction false} KeepDigitsOfDigits(s: string)
    requires AllDigits(s)
    ensures KeepDigits(s) == s
  {
    if s != [] {
      KeepDigitsOfDigits(s[1..]);
    }
  }

  function DigitChar(d: nat): (c: char)
    requires d < 10
    ensures IsDigit(c)
  {
    "0123456789"[d]
  }

  function DigitValue(c: char): nat
    requires IsDigit(c)
  {
    (c - '0') as nat
  }

  /** `String(n)` for a non-negative integer: its decimal digits, most significant first. */
  function NatToString(n: nat): (r: string)
    ensures |r| >= 1 && AllDigits(r)
  {
    if n < 10 then [DigitChar(n)] else NatToString(n / 10) + [DigitChar(n % 10)]
  }

  /** The value of a string of decimal digits. */
  function DigitsValue(s: string): nat
    requires AllDigits(s)
  {
    if s == [] then 0 else 10 * DigitsValue(s[..|s| - 1]) + DigitValue(s[|s| - 1])
  }

  /** The longest prefix of `s` made of digits. */
  function DigitPrefix(s: string): (r: string)
    ensures AllDigits(r) && r <= s
  {
    if s != [] && IsDigit(s[0]) then [s[0]] + DigitPrefix(s[1..]) else []
  }

  /**
   * `Number.parseInt(s, 10)`: skip leading whitespace, read an optional sign and then
   * the longest run of decimal digits; `None` stands for NaN (no digit at all).
   */
  function ParseInt(s: string): Option<int> {
    var t := TrimStart(s);
    var negative := t != [] && t[0] == '-';
    var u := if t != [] && (t[0] == '-' || t[0] == '+') then t[1..] else t;
    var ds := DigitPrefix(u);
    if ds == [] then None
    else if negative then Some(-(DigitsValue(ds) as int))
    else Some(DigitsValue(ds))
  }

  lemma {:induction false} DigitPrefixOfDigits(s: string)
    requires AllDigits(s)
    ensures DigitPrefix(s) == s
  {
    if s != [] {
      DigitPrefixOfDigits(s[1..]);
    }
  }

  lemma {:induction false} DigitsValueOfNatToString(n: nat)
    ensures DigitsValue(NatToString(n)) == n
  {
    var s := NatToString(n);
    if n >= 10 {
      DigitsValueOfNatToString(n / 10);
      assert s[..|s| - 1] == NatToString(n / 10);
      assert DigitValue(DigitChar(n % 10)) == n % 10;
    } else {
      assert DigitValue(DigitChar(n)) == n;
    }
  }

  /** Reading back what `String(n)` printed gives `n`: the count marker round trip. */
  lemma ParseIntOfNatToString(n: nat)
    ensures ParseInt(NatToString(n)) == Some(n)
  {
    var s := NatToString(n);
    assert IsDigit(s[0]);
    assert TrimStart(s) == s;
    DigitPrefixOfDigits(s);
    DigitsValueOfNatToString(n);
  }

  /** Different numbers print differently. */
  lemma NatToStringInjective(m: nat, n: nat)
    ensures NatToString(m) == NatToString(n) ==> m == n
  {
    ParseIntOfNatToString(m);
    ParseIntOfNatToString(n);
  }
}

=== FILE: wrappers.dfy ===
/** Failure-carrying values shared by every module of the model. */
module Wrappers {

  /** A value that may be absent: JavaScript's `null` / `undefined`. */
  datatype Option<+T> = None | Some(value: T)

  /** The outcome of an operation that either produces a value or raises an error. */
  datatype Result<+T, +E> = Ok(value: T) | Err(error: E)
}
